=== FILE: README.md ===
# Tailspin Space Game leaderboard — Dafny model

This project models the leaderboard query service of the Tailspin Space Game web site.
The site ranks high scores, lets a visitor filter them by game mode and galaxy region,
shows them a page at a time, and pairs each score with the profile of the player who
made it. The repository contract (`IDocumentDBRepository`) has two backends:

- `LocalDocumentDBRepository` keeps the scores and profiles in memory and answers
  with LINQ: `Where`, then `OrderByDescending(HighScore)`, then `Skip`/`Take`. It
  counts with `Where(...).Count()` and looks up profiles with `Single`.
- `RemoteDBRepository` answers with SQL. It chooses one of four WHERE clauses, orders
  by `score DESC` and cuts the page with `OFFSET`/`FETCH`. It maps rows to records
  column by column. It fills a profile's achievements array from a count query and
  a description query.

`HomeController.Index` builds the leaderboard view model. It gets the count and one page
of scores, looks up one profile per score, and zips scores with profiles.
`HomeController.Profile` shows one profile or redirects back.

Modules, one per file:

| file | module | what it holds |
|---|---|---|
| outcomes.dfy | `Outcomes` | `Result` (return or throw) and the `Fault` kinds |
| int32.dfy | `Int32` | C# `int` range and unchecked wrap-around |
| seqs.dfy | `Seqs` | `Map`, LINQ `Skip`/`Take`, `Distinct` |
| sorting.dfy | `Sorting` | `OrderByDescending` as a stable insertion sort, with its stability and tie lemmas |
| entities.dfy | `Entities` | `Score`, `Profile`, nullable strings, `IsNullOrEmpty` |
| paging.dfy | `Paging` | the page offset, both as intended and as computed in 32-bit arithmetic |
| local_repository.dfy | `LocalRepository` | the in-memory backend and its paging lemmas |
| remote_repository.dfy | `RemoteRepository` | query datatypes (`Shape`, `FetchQuery`, `CountQuery`), their meaning over tables of rows, and the SQL backend |
| parity.dfy | `Parity` | the two backends compared on the same data |
| leaderboard.dfy | `Leaderboard` | the controller actions over an abstract repository |

The SQL engine's meaning of a query is part of the model. The rules are:

- `WHERE` keeps the rows that satisfy the shape.
- `ORDER BY score DESC` is a stable sort over table order.
- `OFFSET n ROWS FETCH NEXT m ROWS ONLY` is the slice of up to m rows that starts at row n.
- A negative OFFSET is an error, and so is a FETCH of fewer than one row. These are SQL Server's rules.

Ties under `ORDER BY` are really left to the engine. `Parity.TieOrderDoesNotChangeScores`
shows that any tie order the engine picks gives the same score at every position. The rows
themselves can differ, and across page queries a tied row can repeat or be skipped
(`Parity.TiedRowsCanRepeatAcrossPages`).

Paging preconditions: the repository operations take `page >= 1` and `pageSize >= 0`. The
source does not check these. The controller's defaults are page 1 and page size 10.

## Model

| member | source | states |
|---|---|---|
| `LocalRepository.Where` | Tailspin.SpaceGame.Web/LocalDocumentDBRepository.cs:56-61 | the filtered list holds each stored score as often as it is stored when it matches the mode/region predicate (null or empty filter = any), and never otherwise |
| `LocalRepository.CountWhere` | Tailspin.SpaceGame.Web/LocalDocumentDBRepository.cs:84-86 | counting matches one stored score at a time gives the length of the filtered list |
| `LocalRepository.CountScores` | Tailspin.SpaceGame.Web/LocalDocumentDBRepository.cs:78-89 | the count uses the same predicate as the page query: it is the length of the whole filtered leaderboard and at most the number of stored scores |
| `LocalRepository.GetScores` | Tailspin.SpaceGame.Web/LocalDocumentDBRepository.cs:50-68 | a page has at most pageSize scores, all match the filter, and they are in non-increasing HighScore order; it is exactly the leaderboard from offset (page-1)*pageSize, and it is empty when that offset is at or past the count |
| `LocalRepository.SingleFrom` | Tailspin.SpaceGame.Web/LocalDocumentDBRepository.cs:35 | `Single` succeeds exactly when one profile carries the id, fails with no-match on zero and with many-matches on two or more |
| `LocalRepository.GetProfile` | Tailspin.SpaceGame.Web/LocalDocumentDBRepository.cs:33-36 | the profile returned is a stored profile with the requested id; the lookup fails when zero or more than one profile has that id |
| `LocalRepository.RankedHoldsTheMatches` | Tailspin.SpaceGame.Web/LocalDocumentDBRepository.cs:60-62 | the sorted leaderboard is a permutation of the matching stored scores |
| `LocalRepository.WhereWithKey` | Tailspin.SpaceGame.Web/LocalDocumentDBRepository.cs:61 | `Where` keeps stored order: filtering and then taking the scores with one HighScore gives the same sequence as taking them first and filtering after |
| `LocalRepository.RankedKeepsTiesInStoredOrder` | Tailspin.SpaceGame.Web/LocalDocumentDBRepository.cs:61-62 | scores with equal HighScore appear in the leaderboard in the order in which they are stored: the ties of the sorted list are exactly the stored scores with that HighScore that match the filter, in stored order |
| `LocalRepository.AdjacentPagesConcatenate` | Tailspin.SpaceGame.Web/LocalDocumentDBRepository.cs:63-64 | page p followed by page p+1 is the 2*pageSize window of the leaderboard starting at page p's offset |
| `LocalRepository.AdjacentPagesDisjoint` | Tailspin.SpaceGame.Web/LocalDocumentDBRepository.cs:63-64 | when no score is stored twice, pages p and p+1 share no score |
| `LocalRepository.EveryMatchOnItsPage` | Tailspin.SpaceGame.Web/LocalDocumentDBRepository.cs:63-64 | every leaderboard entry appears on the page whose window holds its position, at its position minus that page's offset, so paging neither skips nor repeats an entry |
| `LocalRepository.CountCoversFirstPage` | Tailspin.SpaceGame.Web/LocalDocumentDBRepository.cs:80-86 | when pageSize is at least the count, page 1 is the whole filtered leaderboard and its length is the count |
| `LocalRepository.UnfilteredCountIsTotal` | Tailspin.SpaceGame.Web/LocalDocumentDBRepository.cs:81-82 | with both filters null or empty the count is the number of stored scores |
| `LocalRepository.DefaultRequestShowsTopTen` | Tailspin.SpaceGame.Web/LocalDocumentDBRepository.cs:50-54 | the default page 1 of size 10 with empty filters is the ten highest stored scores |
| `LocalRepository.GetScoresAsWritten` | Tailspin.SpaceGame.Web/LocalDocumentDBRepository.cs:60-65 | with the 32-bit offset, a page still has at most pageSize matching stored scores |
| `LocalRepository.GetScoresAsWrittenAgrees` | Tailspin.SpaceGame.Web/LocalDocumentDBRepository.cs:63 | whenever (page-1)*pageSize fits in an int, the code as written returns the intended page |
| `LocalRepository.WrappedPageRepeatsFirstPage` | Tailspin.SpaceGame.Web/LocalDocumentDBRepository.cs:63 | with one stored score, page 65537 of size 65536 shows that score again, where the intended page is empty |
| `Sorting.SortDesc` | Tailspin.SpaceGame.Web/LocalDocumentDBRepository.cs:62 | the sort returns a permutation of its input in non-increasing key order |
| `Sorting.SortIsStable` | Tailspin.SpaceGame.Web/LocalDocumentDBRepository.cs:62 | for every key, the elements with that key appear in input order |
| `Seqs.Skip` | Tailspin.SpaceGame.Web/LocalDocumentDBRepository.cs:63 | `Skip` drops nothing for a count at or below zero and everything for a count at or past the end; the result is a suffix |
| `Seqs.Take` | Tailspin.SpaceGame.Web/LocalDocumentDBRepository.cs:64 | `Take` keeps nothing for a count at or below zero and min(count, length) elements otherwise; the result is a prefix |
| `Paging.Offset` | Tailspin.SpaceGame.Web/LocalDocumentDBRepository.cs:63 | the offset is never negative, and it is zero exactly for page 1 or page size 0 |
| `Paging.NextPageFollows` | Tailspin.SpaceGame.Web/LocalDocumentDBRepository.cs:63 | page p+1 starts exactly pageSize rows after page p |
| `Paging.PageOf` | Tailspin.SpaceGame.Web/LocalDocumentDBRepository.cs:63-64 | every row index has a page, numbered from 1, whose window holds it: the row is at or after that page's offset and before the next page's |
| `Int32.Wrap` | Tailspin.SpaceGame.Web/RemoteDBRepository.cs:69 | an unchecked `int` operation yields a value in the `int` range that differs from the exact result by a multiple of 2^32, and is the exact result whenever that fits |
| `Paging.Offset32` | Tailspin.SpaceGame.Web/RemoteDBRepository.cs:69 | the source's `pageSize * (page - 1)` is an int congruent to the true offset modulo 2^32 |
| `Paging.Offset32AgreesWithoutOverflow` | Tailspin.SpaceGame.Web/RemoteDBRepository.cs:69 | when the true offset fits in an int, the 32-bit computation gives it |
| `Paging.Offset32WrapsToFirstPage` | Tailspin.SpaceGame.Web/RemoteDBRepository.cs:69 | page 65537 of size 65536 computes offset 0, but the true offset is 2^32 |
| `Paging.Offset32WrapsNegative` | Tailspin.SpaceGame.Web/RemoteDBRepository.cs:69 | page 32769 of size 65536 computes a negative offset |
| `RemoteRepository.Select` | Tailspin.SpaceGame.Web/RemoteDBRepository.cs:71-75 | a WHERE clause keeps each row that satisfies it as often as the table holds it, and no other row |
| `RemoteRepository.OffsetFetch` | Tailspin.SpaceGame.Web/RemoteDBRepository.cs:69 | the OFFSET/FETCH window holds at most fetch rows, namely the rows from position offset on, and none when offset is past the end |
| `RemoteRepository.RunFetch` | Tailspin.SpaceGame.Web/RemoteDBRepository.cs:69-75 | the page query succeeds exactly when OFFSET is at least 0 and FETCH at least 1; its rows satisfy the WHERE clause, descend by score and number at most FETCH |
| `RemoteRepository.RunCount` | Tailspin.SpaceGame.Web/RemoteDBRepository.cs:106-113 | `count(*)` is the number of rows the WHERE clause selects |
| `RemoteRepository.FetchShape` | Tailspin.SpaceGame.Web/RemoteDBRepository.cs:69-75 | each (mode empty?, region empty?) case picks exactly one of the four shapes (null or empty = absent), and each chosen shape carries only non-empty filter values |
| `RemoteRepository.CountShape` | Tailspin.SpaceGame.Web/RemoteDBRepository.cs:105-113 | the count query never keeps its empty initial text, and it picks the same shape as the page query for every (mode, region) |
| `RemoteRepository.FetchQueryAsWrittenAgrees` | Tailspin.SpaceGame.Web/RemoteDBRepository.cs:69 | whenever the offset fits in an int, the query as written has the intended OFFSET |
| `RemoteRepository.WrappedOffsetFailsQuery` | Tailspin.SpaceGame.Web/RemoteDBRepository.cs:69 | page 32769 of size 65536 sends a negative OFFSET and the query fails |
| `RemoteRepository.ScoreOfRow` | Tailspin.SpaceGame.Web/RemoteDBRepository.cs:85-92 | HighScore comes from the `score` column and every other field from the column of its name; the mapping is invertible, so no column is lost |
| `RemoteRepository.ScoreMappingRoundTrip` | Tailspin.SpaceGame.Web/RemoteDBRepository.cs:85-92 | mapping a score to its row and back returns the same score |
| `RemoteRepository.GetScores` | Tailspin.SpaceGame.Web/RemoteDBRepository.cs:66-100 | the SQL page succeeds exactly when pageSize is at least 1 (size 0 is a FETCH error); a page holds at most pageSize scores in non-increasing HighScore order |
| `RemoteRepository.CountScores` | Tailspin.SpaceGame.Web/RemoteDBRepository.cs:102-122 | the count never fails on the empty command and equals the number of rows the page query's WHERE clause selects |
| `RemoteRepository.FillFrom` | Tailspin.SpaceGame.Web/RemoteDBRepository.cs:54-59 | the reader loop writes description row k to slot i+k and leaves the other slots alone; a row with no slot left is an out-of-range failure |
| `RemoteRepository.FillAchievements` | Tailspin.SpaceGame.Web/RemoteDBRepository.cs:53-59 | the achievements array has exactly recordCount slots; description i is at index i and the remaining slots are null; more descriptions than slots is an out-of-range failure |
| `RemoteRepository.DescriptionsWithId` | Tailspin.SpaceGame.Web/RemoteDBRepository.cs:48 | the `ON a.id = pa.achievementid` side of the join: a description is produced exactly when some achievement row with that id carries it, and never more descriptions than achievement rows |
| `RemoteRepository.JoinAchievements` | Tailspin.SpaceGame.Web/RemoteDBRepository.cs:45-48 | a description is in the join exactly when some membership of the profile names an achievement row that carries it |
| `RemoteRepository.JoinConcat` | Tailspin.SpaceGame.Web/RemoteDBRepository.cs:48 | the join reads the membership table row by row: the join over two tables read one after the other is the two joins concatenated |
| `RemoteRepository.KeyedDescription` | Tailspin.SpaceGame.Web/RemoteDBRepository.cs:48 | when achievement ids are unique, the achievement a membership names contributes exactly its one description |
| `RemoteRepository.NoDescriptionsWithoutId` | Tailspin.SpaceGame.Web/RemoteDBRepository.cs:48 | a membership naming an id that no achievement row carries contributes nothing to the inner join |
| `RemoteRepository.MembershipsOf` | Tailspin.SpaceGame.Web/RemoteDBRepository.cs:45 | `WHERE pa.profileid = …` keeps exactly the membership rows of the profile |
| `RemoteRepository.OneDescriptionPerMembership` | Tailspin.SpaceGame.Web/RemoteDBRepository.cs:45-47 | when achievement ids are unique and every membership names an existing achievement, the count query's recordCount is the number of memberships of the profile |
| `RemoteRepository.RowsReadForId` | Tailspin.SpaceGame.Web/RemoteDBRepository.cs:31-43 | the reader loop reads no row for an id that no profile row carries, at least one row otherwise, and the last row it reads is the table's last row with the id |
| `RemoteRepository.ProfilesWithId` | Tailspin.SpaceGame.Web/RemoteDBRepository.cs:31 | every profile row the lookup reads carries the requested id |
| `RemoteRepository.ProfilesWithIdIsFilter` | Tailspin.SpaceGame.Web/RemoteDBRepository.cs:31 | the `WHERE id = …` query keeps exactly the table's rows with that id, each as many times as the table holds it, and no other row |
| `RemoteRepository.LastRowReadIsLastMatch` | Tailspin.SpaceGame.Web/RemoteDBRepository.cs:36-43 | the last row the reader loop reads is the last row of the table that has the id, so that row's columns are the ones that stay in the profile |
| `RemoteRepository.LastMatchExists` | Tailspin.SpaceGame.Web/RemoteDBRepository.cs:36-43 | a table with any row carrying the id has a last such row |
| `RemoteRepository.ReadProfileRows` | Tailspin.SpaceGame.Web/RemoteDBRepository.cs:36-43 | with no row the profile is untouched; otherwise the last row read sets every property except Achievements |
| `RemoteRepository.AssembleProfile` | Tailspin.SpaceGame.Web/RemoteDBRepository.cs:28-63 | with no profile row the result is the blank `new Profile()` (null fields) and is not a failure; with rows the last one's columns are used; the array has recordCount slots, slot k holds description k and the slots after the descriptions stay null; it fails only when there are more descriptions than the count |
| `RemoteRepository.GetProfile` | Tailspin.SpaceGame.Web/RemoteDBRepository.cs:26-64 | on one unchanging database, for an id written as a numeric literal and with no null column, the lookup does not fail; its achievements are the joined descriptions; an unknown id gives the blank `new Profile()` (null id, user name and avatar); an id that some row carries comes back as the id, and user name and avatar come from the last row with that id |
| `Parity.ShapeMeansPredicate` | Tailspin.SpaceGame.Web/RemoteDBRepository.cs:70-75 | under exact string comparison (collation is not modelled), the chosen WHERE shape holds of a row exactly when the in-memory predicate holds of the mapped score |
| `Parity.FetchShapeSelectsWhere` | Tailspin.SpaceGame.Web/RemoteDBRepository.cs:71-75 | selecting rows with the chosen shape and mapping them gives the list that the in-memory `Where` returns |
| `Parity.OffsetFetchIsSkipTake` | Tailspin.SpaceGame.Web/RemoteDBRepository.cs:69 | OFFSET (page-1)*pageSize FETCH pageSize is the same window as `Skip((page-1)*pageSize).Take(pageSize)` |
| `Parity.OrderedRowsAreRanked` | Tailspin.SpaceGame.Web/RemoteDBRepository.cs:69-75 | the selected rows, ordered by score, map to the in-memory sorted leaderboard |
| `Parity.ScoresAgree` | Tailspin.SpaceGame.Web/RemoteDBRepository.cs:66-100 | on the same scores both backends return the same page for every filter, page and page size of at least 1, provided the engine breaks score ties in table order and the filters compare strings exactly (see Left out) |
| `Parity.CountsAgree` | Tailspin.SpaceGame.Web/RemoteDBRepository.cs:102-122 | on the same scores both backends return the same count for every filter, when the filters compare strings exactly (see Left out) |
| `Parity.ZeroPageSizeDiverges` | Tailspin.SpaceGame.Web/RemoteDBRepository.cs:69 | with page size 0 the in-memory page is empty but the SQL page query fails |
| `Parity.TieOrderDoesNotChangeScores` | Tailspin.SpaceGame.Web/RemoteDBRepository.cs:69 | any descending order of the selected rows has the same score at every position as the modelled order |
| `Parity.TiedRowsCanRepeatAcrossPages` | Tailspin.SpaceGame.Web/RemoteDBRepository.cs:69 | two tied rows can be ordered either way by each query, so pages 1 and 2 of size 1 can both show the same row and neither shows the other |
| `Parity.MissingProfileDiverges` | Tailspin.SpaceGame.Web/RemoteDBRepository.cs:28-63 | for an id no profile has, the in-memory lookup fails with no-match. For an id written as a numeric literal, the SQL lookup returns a profile whose id is null |
| `Leaderboard.LookupProfiles` | Tailspin.SpaceGame.Web/Controllers/HomeController.cs:65-70 | the lookups succeed exactly when every score's lookup succeeds; then there is one profile per score, in score order, each the one looked up by that score's ProfileId |
| `Leaderboard.Zip` | Tailspin.SpaceGame.Web/Controllers/HomeController.cs:73 | `Zip` pairs elements by position, as long as the shorter input |
| `Leaderboard.Index` | Tailspin.SpaceGame.Web/Controllers/HomeController.cs:20-81 | Page, PageSize, SelectedMode and SelectedRegion equal the inputs, and the mode and region lists are fixed, whatever fails. TotalResults is the count once count and page succeed, and 0 otherwise. Scores is set exactly when every call succeeds; then row i pairs fetched score i with the profile looked up by its ProfileId. A failure is never rethrown |
| `Leaderboard.ProfilePage` | Tailspin.SpaceGame.Web/Controllers/HomeController.cs:83-95 | the profile page shows the fetched profile with the given rank when the lookup succeeds, and redirects to "/" when it fails |
| `Leaderboard.RowsPairScoreWithItsPlayer` | Tailspin.SpaceGame.Web/Controllers/HomeController.cs:65-73 | when lookups only return the profile asked for, every row's profile id is its score's ProfileId |
| `Leaderboard.DefaultLeaderboardFromFixtures` | Tailspin.SpaceGame.Web/Controllers/HomeController.cs:20-25 | on the in-memory backend, when every score's player has exactly one profile, the default request shows the full count and the ten highest scores, each with its own player's profile |

## Left out

- The constructors: JSON file reading in `LocalDocumentDBRepository` and connection-string lookup in `RemoteDBRepository` are I/O. The score and profile sequences, and the database tables, are taken as given.
- ADO.NET plumbing: connections, commands, readers and `Convert.ChangeType`. Rows are records and the column mapping is written out field by field.
- Query text: string formatting, quoting and the SQL injection this allows are not modelled. Queries are datatypes. Collation is not modelled either: SQL Server's default comparison ignores case and trailing spaces, while the model compares strings exactly.
- The order of join rows in the achievements query is left to the engine. The model takes membership-table order.
- The `Task`/`WaitAll` fan-out in `Index` is modelled as a sequential map. The result does not depend on timing because each call is a pure function of its inputs.
- MVC view rendering, routing, `Privacy`, `Error` and response caching.
- Browser UI tests, because they are external I/O only.
- The `Score` and `Profile` model classes are not part of this model. Their fields come from the properties the repositories read: Id, ProfileId, GameMode, GameRegion and HighScore for scores; Id, UserName, AvatarUrl and Achievements for profiles. Score fields are never null in the model.
- `Enumerable.Count` throws when more than int.MaxValue scores match. The model counts with an unbounded natural number.
- HighScore is an unbounded integer. The sort only compares HighScore values, so the 32-bit width does not matter.
- `RemoteRepository.GetProfile`: it assumes the count query and the description query see the same data. `RemoteRepository.AssembleProfile` covers the case where they do not. The out-of-range failure can only happen there, because the two queries do not run in a transaction.
- `RemoteRepository.GetProfile`: the id goes into the SQL text without quotes. The model assumes an id written as a numeric literal and compares ids as strings. It also assumes no column is NULL. In the source, a non-numeric or empty id is a syntax or conversion error, which throws, and `Profile` would then redirect. A numeric id is compared as a number, so "07" finds row 7. A NULL profile column does not throw: `Convert.ChangeType` turns `DBNull` into the empty string, so the property becomes `""` and the lookup still returns a profile. A NULL achievement description does throw, in `GetString`, and `Profile` would then redirect.
- `Parity.ScoresAgree`: the equality of the rows assumes that the engine breaks score ties in table order and uses the same tie order for every query. SQL Server does not promise either. For any tie order the engine picks, only `Parity.TieOrderDoesNotChangeScores` holds: the scores at each position agree. `Parity.TiedRowsCanRepeatAcrossPages` shows that, across separate page queries, a tied row at a page boundary can repeat while another is skipped. The row equality also assumes that the filters compare strings exactly, as `Parity.ShapeMeansPredicate` does.
- `Parity.CountsAgree`: the count equality assumes exact string comparison in the WHERE clause. Under SQL Server's default collation, which ignores case and trailing spaces, `mode = "solo"` counts the Solo rows in SQL and none in the in-memory store. `Parity.ScoresAgree` and `Parity.ShapeMeansPredicate` rest on the same assumption.

## Findings

| source | as written | input that shows it | evidently intended | confidence | as-written member | corrected member |
|---|---|---|---|---|---|---|
| Tailspin.SpaceGame.Web/LocalDocumentDBRepository.cs:63 | `(page - 1) * pageSize` is computed in unchecked 32-bit `int` arithmetic, in both backends (also RemoteDBRepository.cs:69) | page = 65537, pageSize = 65536: the offset wraps to 0, so page 65537 repeats page 1. Page 32769 with size 65536 wraps to a negative offset: `Skip` ignores it, and SQL rejects it | the offset is the number of rows on all earlier pages, so a page past the end is empty | high (not executed) | `Paging.Offset32`, shown by `LocalRepository.WrappedPageRepeatsFirstPage` and `RemoteRepository.WrappedOffsetFailsQuery` | `Paging.Offset`, with `LocalRepository.GetScores`, `LocalRepository.EveryMatchOnItsPage` and `Paging.NextPageFollows` |

=== FILE: entities.dfy ===
/** The records the leaderboard reads: scores and player profiles. */
module Entities {

  /** A .NET string reference: null, or a sequence of characters. */
  datatype NullableString = Null | Str(chars: string)

  /** string.IsNullOrEmpty: the filter value that means "any". */
  predicate IsNullOrEmpty(s: NullableString) {
    s.Null? || s.chars == ""
  }

  /** One submitted high score. */
  datatype Score = Score(
    id: string,
    profileId: string,
    gameMode: string,
    gameRegion: string,
    highScore: int)

  /** The leaderboard ranks scores by this key. */
  function HighScoreOf(s: Score): int {
    s.highScore
  }

  /** A player profile; every property is a reference that a fresh `new Profile()` leaves null. */
  datatype Profile = Profile(
    id: NullableString,
    userName: NullableString,
    avatarUrl: NullableString,
    achievements: seq<NullableString>)

  /** `new Profile()`: no property set yet. */
  const BlankProfile: Profile := Profile(Null, Null, Null, [])
}

=== FILE: int32.dfy ===
/** The 32-bit signed integers of C#, whose arithmetic wraps around unless `checked`. */
module Int32 {

  const Min: int := -0x8000_0000
  const Max: int := 0x7fff_ffff
  const Modulus: int := 0x1_0000_0000

  /** Values an `int` variable can hold. */
  predicate InRange(x: int) {
    Min <= x <= Max
  }

  /** The C# `int` type. */
  type Value = x: int | InRange(x) witness 0

  /** The two's-complement result of an unchecked `int` operation whose exact value is x. */
  function Wrap(x: int): (r: int)
    ensures InRange(r)
    ensures Congruent(x, r)
    ensures InRange(x) ==> r == x
  {
    (x - Min) % Modulus + Min
  }

  /** x and y leave the same two's-complement bits: they differ by a multiple of 2^32. */
  predicate Congruent(x: int, y: int) {
    (x - y) % Modulus == 0
  }

  /** Congruence survives multiplying both sides by the same factor. */
  lemma ScaleCongruent(c: int, x: int, y: int)
    requires Congruent(x, y)
    ensures Congruent(c * x, c * y)
  {
    var k := (x - y) / Modulus;
    assert x - y == Modulus * k;
    assert c * x - c * y == Modulus * (c * k) by {
      assert c * x - c * y == c * (x - y);
    }
  }

  /** Congruence is transitive. */
  lemma ChainCongruent(x: int, y: int, z: int)
    requires Congruent(x, y) && Congruent(y, z)
    ensures Congruent(x, z)
  {
    var k, m := (x - y) / Modulus, (y - z) / Modulus;
    assert x - z == Modulus * (k + m);
  }
}

=== FILE: leaderboard.dfy ===
/**
 * HomeController: the leaderboard page and the profile page. The repository is whichever
 * backend is configured, seen here as three pure calls that either return or throw; the
 * concurrent profile lookups are taken one after another, in score order.
 */
module Leaderboard {
  import opened Outcomes
  import opened Entities
  import Int32
  import Local = LocalRepository
  import Seqs
  import Sorting

  /** IDocumentDBRepository as the controller uses it. */
  datatype Repository = Repository(
    countScores: (NullableString, NullableString) -> Result<int>,
    getScores: (NullableString, NullableString, Int32.Value, Int32.Value) -> Result<seq<Score>>,
    getProfile: string -> Result<Profile>)

  /** One leaderboard row: a score and the profile of the player who made it. */
  datatype ScoreProfile = ScoreProfile(score: Score, profile: Profile)

  /** LeaderboardViewModel; `scores` stays None (a null reference) unless every call succeeded. */
  datatype LeaderboardViewModel = LeaderboardViewModel(
    page: Int32.Value,
    pageSize: Int32.Value,
    selectedMode: NullableString,
    selectedRegion: NullableString,
    gameModes: seq<string>,
    gameRegions: seq<string>,
    totalResults: int,
    scores: Option<seq<ScoreProfile>>)

  /** The filter choices the page offers. */
  const GameModes: seq<string> := ["Solo", "Duo", "Trio"]
  const GameRegions: seq<string> := ["Milky Way", "Andromeda", "Pinwheel", "NGC 1300", "Messier 82"]

  /** The action's parameter defaults. */
  const DefaultPage: Int32.Value := 1
  const DefaultPageSize: Int32.Value := 10
  const DefaultFilter: NullableString := Str("")

  /** One profile lookup per score, in score order; any failed lookup makes WaitAll throw. */
  function LookupProfiles(repo: Repository, scores: seq<Score>): (r: Result<seq<Profile>>)
    ensures r.Ok? <==> forall i :: 0 <= i < |scores| ==> repo.getProfile(scores[i].profileId).Ok?
    ensures r.Ok? ==> |r.value| == |scores|
    ensures r.Ok? ==> forall i :: 0 <= i < |scores| ==> repo.getProfile(scores[i].profileId) == Ok(r.value[i])
  {
    if |scores| == 0 then Ok([])
    else
      match repo.getProfile(scores[0].profileId)
      case Err(f) => Err(f)
      case Ok(first) =>
        match LookupProfiles(repo, scores[1..])
        case Err(f) => Err(f)
        case Ok(rest) => Ok([first] + rest)
  }

  /** Enumerable.Zip: pairs by position, as long as the shorter input. */
  function Zip(scores: seq<Score>, profiles: seq<Profile>): (r: seq<ScoreProfile>)
    ensures |r| == Seqs.Min(|scores|, |profiles|)
    ensures forall i :: 0 <= i < |r| ==> r[i] == ScoreProfile(scores[i], profiles[i])
  {
    if |scores| == 0 || |profiles| == 0 then []
    else [ScoreProfile(scores[0], profiles[0])] + Zip(scores[1..], profiles[1..])
  }

  /**
   * Index: fill in what is known, then count, fetch one page, look up one profile per score
   * and pair them. Any exception is caught and the view model is shown as far as it got.
   */
  function Index(repo: Repository, page: Int32.Value, pageSize: Int32.Value, mode: NullableString, region: NullableString): (vm: LeaderboardViewModel)
    ensures vm.page == page && vm.pageSize == pageSize
    ensures vm.selectedMode == mode && vm.selectedRegion == region
    ensures vm.gameModes == GameModes && vm.gameRegions == GameRegions
    ensures var count, fetched := repo.countScores(mode, region), repo.getScores(mode, region, page, pageSize);
      vm.totalResults == if count.Ok? && fetched.Ok? then count.value else 0
    ensures var count, fetched := repo.countScores(mode, region), repo.getScores(mode, region, page, pageSize);
      vm.scores.Some? <==>
        && count.Ok? && fetched.Ok?
        && forall i :: 0 <= i < |fetched.value| ==> repo.getProfile(fetched.value[i].profileId).Ok?
    ensures var fetched := repo.getScores(mode, region, page, pageSize);
      vm.scores.Some? ==>
        && |vm.scores.value| == |fetched.value|
        && forall i :: 0 <= i < |fetched.value| ==>
             && vm.scores.value[i].score == fetched.value[i]
             && repo.getProfile(fetched.value[i].profileId) == Ok(vm.scores.value[i].profile)
  {
    var vm := LeaderboardViewModel(page, pageSize, mode, region, GameModes, GameRegions, 0, None);
    match repo.countScores(mode, region)
    case Err(_) => vm
    case Ok(total) =>
      match repo.getScores(mode, region, page, pageSize)
      case Err(_) => vm
      case Ok(scores) =>
        var counted := vm.(totalResults := total);
        match LookupProfiles(repo, scores)
        case Err(_) => counted
        case Ok(profiles) => counted.(scores := Some(Zip(scores, profiles)))
  }

  /** ProfileViewModel. */
  datatype ProfileViewModel = ProfileViewModel(profile: Profile, rank: string)

  /** What the profile action answers with. */
  datatype ProfileResult = ProfileView(model: ProfileViewModel) | RedirectToAction(action: string)

  /** Profile: show the profile with the rank passed in, or go back to the leaderboard if the lookup throws. */
  function ProfilePage(repo: Repository, id: string, rank: string): (r: ProfileResult)
    ensures r.ProfileView? <==> repo.getProfile(id).Ok?
    ensures r.ProfileView? ==> r.model.profile == repo.getProfile(id).value && r.model.rank == rank
    ensures r.RedirectToAction? ==> r.action == "/"
  {
    match repo.getProfile(id)
    case Ok(profile) => ProfileView(ProfileViewModel(profile, rank))
    case Err(_) => RedirectToAction("/")
  }

  /** A repository whose lookups only ever return the profile asked for pairs every score with its own player. */
  lemma RowsPairScoreWithItsPlayer(repo: Repository, page: Int32.Value, pageSize: Int32.Value, mode: NullableString, region: NullableString)
    requires forall id :: repo.getProfile(id).Ok? ==> repo.getProfile(id).value.id == Str(id)
    ensures var vm := Index(repo, page, pageSize, mode, region);
      vm.scores.Some? ==> forall i :: 0 <= i < |vm.scores.value| ==>
        vm.scores.value[i].profile.id == Str(vm.scores.value[i].score.profileId)
  {
  }

  /** The in-memory repository behind the controller, exactly as written. */
  function InMemory(store: Local.Store): Repository {
    Repository(
      (mode, region) => Ok(Local.CountScores(store, mode, region)),
      (mode: NullableString, region: NullableString, page: Int32.Value, pageSize: Int32.Value) => Ok(Local.GetScoresAsWritten(store, mode, region, page, pageSize)),
      profileId => Local.GetProfile(store, profileId))
  }

  /**
   * With fixture data in which every score's player has exactly one profile, the default
   * leaderboard shows the ten highest scores, each with its player's profile, and the full count.
   */
  lemma DefaultLeaderboardFromFixtures(store: Local.Store)
    requires forall s :: s in store.scores ==> Local.CountWithId(store.profiles, s.profileId) == 1
    ensures var vm := Index(InMemory(store), DefaultPage, DefaultPageSize, DefaultFilter, DefaultFilter);
      && vm.totalResults == |store.scores|
      && vm.scores.Some?
      && |vm.scores.value| == Seqs.Min(10, |store.scores|)
      && forall i :: 0 <= i < |vm.scores.value| ==>
           && vm.scores.value[i].score == Seqs.Take(Sorting.SortDesc(store.scores, HighScoreOf), 10)[i]
           && vm.scores.value[i].profile.id == Str(vm.scores.value[i].score.profileId)
  {
    var repo := InMemory(store);
    Local.UnfilteredCountIsTotal(store, DefaultFilter, DefaultFilter);
    Local.GetScoresAsWrittenAgrees(store, DefaultFilter, DefaultFilter, 1, 10);
    Local.DefaultRequestShowsTopTen(store);
    RowsPairScoreWithItsPlayer(repo, DefaultPage, DefaultPageSize, DefaultFilter, DefaultFilter);
  }
}

=== FILE: local_repository.dfy ===
/**
 * LocalDocumentDBRepository: scores and profiles held in memory, queried with LINQ.
 * GetScoresAsync is Where, then OrderByDescending(HighScore), then Skip/Take;
 * CountScoresAsync is Where, then Count; GetProfileAsync is Single on the profile id.
 */
module LocalRepository {
  import opened Outcomes
  import opened Entities
  import opened Seqs
  import opened Sorting
  import Paging
  import Int32

  /** The two documents the repository was loaded from. */
  datatype Store = Store(scores: seq<Score>, profiles: seq<Profile>)

  /** The query predicate both score operations use: a null or empty filter matches anything. */
  predicate Matches(s: Score, mode: NullableString, region: NullableString) {
    && (IsNullOrEmpty(mode) || s.gameMode == mode.chars)
    && (IsNullOrEmpty(region) || s.gameRegion == region.chars)
  }

  /** Where(queryPredicate): the matching scores, in stored order. */
  function Where(scores: seq<Score>, mode: NullableString, region: NullableString): (r: seq<Score>)
    ensures forall s :: multiset(r)[s] == if Matches(s, mode, region) then multiset(scores)[s] else 0
  {
    if |scores| == 0 then []
    else
      assert scores == [scores[0]] + scores[1..];
      (if Matches(scores[0], mode, region) then [scores[0]] else []) + Where(scores[1..], mode, region)
  }

  /** Enumerable.Count over the matching scores: one step per stored score. */
  function CountWhere(scores: seq<Score>, mode: NullableString, region: NullableString): (n: nat)
    ensures n == |Where(scores, mode, region)|
  {
    if |scores| == 0 then 0
    else (if Matches(scores[0], mode, region) then 1 else 0) + CountWhere(scores[1..], mode, region)
  }

  /** The whole leaderboard for a filter: the matching scores, highest first, ties in stored order. */
  function Ranked(store: Store, mode: NullableString, region: NullableString): seq<Score> {
    SortDesc(Where(store.scores, mode, region), HighScoreOf)
  }

  /** GetScoresAsync: one page of the leaderboard for a filter. */
  function GetScores(store: Store, mode: NullableString, region: NullableString, page: int, pageSize: int): (r: seq<Score>)
    requires page >= 1 && pageSize >= 0
    ensures |r| <= pageSize
    ensures forall i :: 0 <= i < |r| ==> Matches(r[i], mode, region)
    ensures Descending(r, HighScoreOf)
    ensures var ranked, from := Ranked(store, mode, region), Paging.Offset(page, pageSize);
      from >= |ranked| ==> |r| == 0
    ensures var ranked, from := Ranked(store, mode, region), Paging.Offset(page, pageSize);
      from < |ranked| ==> |r| == Min(pageSize, |ranked| - from)
    ensures IsWindowOf(r, Ranked(store, mode, region), Paging.Offset(page, pageSize))
  {
    var ranked := Ranked(store, mode, region);
    var from := Paging.Offset(page, pageSize);
    RankedMatches(store, mode, region);
    WindowOfRanked(ranked, mode, region, from, pageSize);
    Take(Skip(ranked, from), pageSize)
  }

  /** CountScoresAsync: how many stored scores match the filter. */
  function CountScores(store: Store, mode: NullableString, region: NullableString): (n: nat)
    ensures n == |Ranked(store, mode, region)|
    ensures n <= |store.scores|
  {
    WhereIsShorter(store.scores, mode, region);
    CountWhere(store.scores, mode, region)
  }

  /** How many profiles carry this id. */
  function CountWithId(profiles: seq<Profile>, profileId: string): nat {
    if |profiles| == 0 then 0
    else (if profiles[0].id == Str(profileId) then 1 else 0) + CountWithId(profiles[1..], profileId)
  }

  /**
   * Enumerable.Single, continued from a point where `found` holds the match seen so far:
   * a second match throws at once, and reaching the end with no match throws too.
   */
  function SingleFrom(profiles: seq<Profile>, profileId: string, found: Option<Profile>): (r: Result<Profile>)
    requires found.Some? ==> found.value.id == Str(profileId)
    ensures var total := (if found.Some? then 1 else 0) + CountWithId(profiles, profileId);
      && (r.Ok? <==> total == 1)
      && (r == Err(NoMatch) <==> total == 0)
      && (r == Err(ManyMatches) <==> total >= 2)
    ensures r.Ok? ==> r.value.id == Str(profileId) && (r.value in profiles || found == Some(r.value))
  {
    if |profiles| == 0 then
      (if found.Some? then Ok(found.value) else Err(NoMatch))
    else if profiles[0].id == Str(profileId) then
      (if found.Some? then Err(ManyMatches) else SingleFrom(profiles[1..], profileId, Some(profiles[0])))
    else SingleFrom(profiles[1..], profileId, found)
  }

  /** GetProfileAsync: the one profile with this id; none, or more than one, is a failure. */
  function GetProfile(store: Store, profileId: string): (r: Result<Profile>)
    ensures r.Ok? <==> CountWithId(store.profiles, profileId) == 1
    ensures r == Err(NoMatch) <==> CountWithId(store.profiles, profileId) == 0
    ensures r == Err(ManyMatches) <==> CountWithId(store.profiles, profileId) >= 2
    ensures r.Ok? ==> r.value in store.profiles && r.value.id == Str(profileId)
  {
    SingleFrom(store.profiles, profileId, None)
  }

  /** Ranked holds exactly the matching stored scores, each as often as it is stored. */
  lemma RankedHoldsTheMatches(store: Store, mode: NullableString, region: NullableString, s: Score)
    ensures multiset(Ranked(store, mode, region))[s]
         == if Matches(s, mode, region) then multiset(store.scores)[s] else 0
  {
  }

  /** Filtering by the query and picking one HighScore commute: both keep stored order. */
  lemma {:induction false} WhereWithKey(scores: seq<Score>, mode: NullableString, region: NullableString, k: int)
    ensures WithKey(Where(scores, mode, region), HighScoreOf, k)
         == Where(WithKey(scores, HighScoreOf, k), mode, region)
  {
    if |scores| > 0 {
      var h, t := scores[0], scores[1..];
      WhereWithKey(t, mode, region, k);
      WithKeyCons(h, Where(t, mode, region), HighScoreOf, k);
      if Matches(h, mode, region) {
        assert Where(scores, mode, region) == [h] + Where(t, mode, region);
      } else {
        assert Where(scores, mode, region) == Where(t, mode, region);
      }
      if HighScoreOf(h) == k {
        assert WithKey(scores, HighScoreOf, k) == [h] + WithKey(t, HighScoreOf, k);
        assert ([h] + WithKey(t, HighScoreOf, k))[1..] == WithKey(t, HighScoreOf, k);
      } else {
        assert WithKey(scores, HighScoreOf, k) == WithKey(t, HighScoreOf, k);
      }
    }
  }

  /** Scores that tie keep the order in which they were stored. */
  lemma {:induction false} RankedKeepsTiesInStoredOrder(store: Store, mode: NullableString, region: NullableString, k: int)
    ensures WithKey(Ranked(store, mode, region), HighScoreOf, k)
         == WithKey(Where(store.scores, mode, region), HighScoreOf, k)
    ensures WithKey(Ranked(store, mode, region), HighScoreOf, k)
         == Where(WithKey(store.scores, HighScoreOf, k), mode, region)
  {
    SortIsStable(Where(store.scores, mode, region), HighScoreOf, k);
    WhereWithKey(store.scores, mode, region, k);
  }

  /** Pages p and p + 1 of one size, read back to back, are the double-size window at page p's offset. */
  lemma AdjacentPagesConcatenate(store: Store, mode: NullableString, region: NullableString, page: int, pageSize: int)
    requires page >= 1 && pageSize >= 0
    ensures GetScores(store, mode, region, page, pageSize) + GetScores(store, mode, region, page + 1, pageSize)
         == Take(Skip(Ranked(store, mode, region), Paging.Offset(page, pageSize)), 2 * pageSize)
  {
    Paging.NextPageFollows(page, pageSize);
    AdjacentWindows(Ranked(store, mode, region), Paging.Offset(page, pageSize), pageSize);
  }

  /** When no score is stored twice, pages p and p + 1 have no score in common. */
  lemma AdjacentPagesDisjoint(store: Store, mode: NullableString, region: NullableString, page: int, pageSize: int)
    requires page >= 1 && pageSize >= 0
    requires Distinct(store.scores)
    ensures forall s :: s in GetScores(store, mode, region, page, pageSize)
                    ==> s !in GetScores(store, mode, region, page + 1, pageSize)
  {
    var ranked := Ranked(store, mode, region);
    var here, next := GetScores(store, mode, region, page, pageSize), GetScores(store, mode, region, page + 1, pageSize);
    var from := Paging.Offset(page, pageSize);
    Paging.NextPageFollows(page, pageSize);
    WhereKeepsDistinct(store.scores, mode, region);
    SortKeepsDistinct(Where(store.scores, mode, region), HighScoreOf);
    DisjointWindows(ranked, here, from, next, from + pageSize);
  }

  /** Entry i of the leaderboard is on page PageOf(i), at position i minus that page's offset. */
  lemma EveryMatchOnItsPage(store: Store, mode: NullableString, region: NullableString, pageSize: int, i: int)
    requires pageSize >= 1
    requires 0 <= i < |Ranked(store, mode, region)|
    ensures var p := Paging.PageOf(i, pageSize);
      var page := GetScores(store, mode, region, p, pageSize);
      i - Paging.Offset(p, pageSize) < |page| && page[i - Paging.Offset(p, pageSize)] == Ranked(store, mode, region)[i]
  {
  }

  /** A page at least as large as the count shows the whole filtered leaderboard on page 1. */
  lemma CountCoversFirstPage(store: Store, mode: NullableString, region: NullableString, pageSize: int)
    requires pageSize >= CountScores(store, mode, region)
    ensures GetScores(store, mode, region, 1, pageSize) == Ranked(store, mode, region)
    ensures |GetScores(store, mode, region, 1, pageSize)| == CountScores(store, mode, region)
  {
  }

  /** With no mode and no region every stored score counts. */
  lemma UnfilteredCountIsTotal(store: Store, mode: NullableString, region: NullableString)
    requires IsNullOrEmpty(mode) && IsNullOrEmpty(region)
    ensures CountScores(store, mode, region) == |store.scores|
  {
    WhereAllKeepsEverything(store.scores, mode, region);
  }

  /** The controller's default request (page 1, size 10, no filter) shows the ten highest scores. */
  lemma DefaultRequestShowsTopTen(store: Store)
    ensures GetScores(store, Str(""), Str(""), 1, 10) == Take(SortDesc(store.scores, HighScoreOf), 10)
  {
    WhereAllKeepsEverything(store.scores, Str(""), Str(""));
  }

  /** GetScoresAsync exactly as written: the offset is computed in wrapping 32-bit arithmetic. */
  function GetScoresAsWritten(store: Store, mode: NullableString, region: NullableString, page: int, pageSize: int): (r: seq<Score>)
    requires Int32.InRange(page) && Int32.InRange(pageSize)
    ensures |r| <= if pageSize <= 0 then 0 else pageSize
    ensures forall i :: 0 <= i < |r| ==> Matches(r[i], mode, region) && r[i] in store.scores
  {
    RankedMatches(store, mode, region);
    Take(Skip(Ranked(store, mode, region), Paging.Offset32(page, pageSize)), pageSize)
  }

  /** Whenever the offset fits in an `int`, the code as written returns the intended page. */
  lemma GetScoresAsWrittenAgrees(store: Store, mode: NullableString, region: NullableString, page: int, pageSize: int)
    requires Int32.InRange(page) && Int32.InRange(pageSize)
    requires page >= 1 && pageSize >= 0
    requires Paging.Offset(page, pageSize) <= Int32.Max
    ensures GetScoresAsWritten(store, mode, region, page, pageSize) == GetScores(store, mode, region, page, pageSize)
  {
    Paging.Offset32AgreesWithoutOverflow(page, pageSize);
  }

  /** With one stored score, page 65537 of size 65536 shows that score again instead of nothing. */
  lemma WrappedPageRepeatsFirstPage()
    ensures var store := Store([Score("1", "1", "Solo", "Milky Way", 100)], []);
      && GetScoresAsWritten(store, Null, Null, 65537, 65536) == store.scores
      && GetScores(store, Null, Null, 65537, 65536) == []
  {
    var store := Store([Score("1", "1", "Solo", "Milky Way", 100)], []);
    Paging.Offset32WrapsToFirstPage();
    assert Where(store.scores, Null, Null) == store.scores;
    assert Ranked(store, Null, Null) == store.scores;
  }

  // ---------------------------------------------------------------- helper facts

  /** A window of a descending sequence of matching scores: what GetScores promises, for any such sequence. */
  lemma WindowOfRanked(ranked: seq<Score>, mode: NullableString, region: NullableString, from: nat, pageSize: nat)
    requires Descending(ranked, HighScoreOf)
    requires forall i :: 0 <= i < |ranked| ==> Matches(ranked[i], mode, region)
    ensures var w := Take(Skip(ranked, from), pageSize);
      && |w| <= pageSize
      && |w| == (if from >= |ranked| then 0 else Min(pageSize, |ranked| - from))
      && IsWindowOf(w, ranked, from)
      && (forall i :: 0 <= i < |w| ==> Matches(w[i], mode, region))
      && Descending(w, HighScoreOf)
  {
    var w := Take(Skip(ranked, from), pageSize);
    WindowIndex(ranked, from, pageSize);
    forall i | 0 <= i < |w| ensures Matches(w[i], mode, region) {
      assert w[i] == ranked[from + i];
    }
    WindowKeepsDescending(ranked, w, HighScoreOf, from);
  }

  lemma WhereIsShorter(scores: seq<Score>, mode: NullableString, region: NullableString)
    ensures |Where(scores, mode, region)| <= |scores|
  {
    if |scores| > 0 {
      WhereIsShorter(scores[1..], mode, region);
    }
  }

  /** Every element of the ranked sequence is a stored score that matches the filter. */
  lemma RankedMatches(store: Store, mode: NullableString, region: NullableString)
    ensures var ranked := Ranked(store, mode, region);
      forall i :: 0 <= i < |ranked| ==> Matches(ranked[i], mode, region) && ranked[i] in store.scores
  {
    var ranked := Ranked(store, mode, region);
    forall i | 0 <= i < |ranked| ensures Matches(ranked[i], mode, region) && ranked[i] in store.scores {
      assert ranked[i] in multiset(ranked);
      assert multiset(Where(store.scores, mode, region))[ranked[i]] > 0;
      assert ranked[i] in multiset(store.scores);
    }
  }

  /** With no mode and no region the filter keeps every score. */
  lemma WhereAllKeepsEverything(scores: seq<Score>, mode: NullableString, region: NullableString)
    requires IsNullOrEmpty(mode) && IsNullOrEmpty(region)
    ensures Where(scores, mode, region) == scores
  {
    if |scores| > 0 {
      WhereAllKeepsEverything(scores[1..], mode, region);
    }
  }

  lemma WhereKeepsDistinct(scores: seq<Score>, mode: NullableString, region: NullableString)
    requires Distinct(scores)
    ensures Distinct(Where(scores, mode, region))
  {
    if |scores| > 0 {
      var rest := Where(scores[1..], mode, region);
      assert Distinct(scores[1..]) by {
        forall i, j | 0 <= i < j < |scores[1..]| ensures scores[1..][i] != scores[1..][j] {
          assert scores[1..][i] == scores[i + 1] && scores[1..][j] == scores[j + 1];
        }
      }
      WhereKeepsDistinct(scores[1..], mode, region);
      if Matches(scores[0], mode, region) {
        assert scores[0] !in multiset(scores[1..]);
        assert scores[0] !in multiset(rest);
        ConsKeepsDistinct(scores[0], rest);
      }
    }
  }
}

=== FILE: outcomes.dfy ===
/** Failure-carrying results for the leaderboard repositories and the controller. */
module Outcomes {

  /** The exceptions the modelled code can raise, one constructor per cause. */
  datatype Fault =
    | NoMatch            // Enumerable.Single saw no matching element
    | ManyMatches        // Enumerable.Single saw a second matching element
    | IndexOutOfRange    // a write past the end of an array
    | NegativeOffset     // an OFFSET clause with a negative row count
    | FetchNotPositive   // a FETCH clause asking for fewer than one row
    | EmptyCommand       // a command whose text is the empty string
    | StoreUnavailable   // a backend outside this model failing; only an abstract Leaderboard.Repository produces it

  /** The value of a call that either returns or throws. */
  datatype Result<+T> = Ok(value: T) | Err(fault: Fault)

  /** A .NET reference that may still be null. */
  datatype Option<+T> = None | Some(value: T)
}

=== FILE: paging.dfy ===
/**
 * Which rows a 1-based page covers. Both repositories compute the first row of a page
 * as (page - 1) * pageSize; the source does so in unchecked 32-bit arithmetic.
 */
module Paging {
  import Int32

  /** The intended first row of a page: the rows of all earlier pages are skipped. */
  function Offset(page: int, pageSize: int): (r: nat)
    requires page >= 1 && pageSize >= 0
    ensures r == 0 <==> page == 1 || pageSize == 0
  {
    (page - 1) * pageSize
  }

  /** The next page starts exactly one page size further on. */
  lemma NextPageFollows(page: int, pageSize: int)
    requires page >= 1 && pageSize >= 0
    ensures Offset(page + 1, pageSize) == Offset(page, pageSize) + pageSize
  {
  }

  /** The offset as the source computes it: `pageSize * (page - 1)` on C# `int`s, wrapping on overflow. */
  function Offset32(page: int, pageSize: int): (r: int)
    requires Int32.InRange(page) && Int32.InRange(pageSize)
    ensures Int32.InRange(r)
    ensures page >= 1 && pageSize >= 0 ==> Int32.Congruent(Offset(page, pageSize), r)
  {
    var pages := Int32.Wrap(page - 1);
    var product := pageSize * pages;
    assert page >= 1 && pageSize >= 0 ==> Int32.Congruent(Offset(page, pageSize), Int32.Wrap(product)) by {
      if page >= 1 && pageSize >= 0 {
        assert Int32.Congruent(page - 1, pages);
        Int32.ScaleCongruent(pageSize, page - 1, pages);
        assert Offset(page, pageSize) == pageSize * (page - 1);
        assert Int32.Congruent(product, Int32.Wrap(product));
        Int32.ChainCongruent(Offset(page, pageSize), product, Int32.Wrap(product));
      }
    }
    Int32.Wrap(product)
  }

  /** Whenever the true offset fits in an `int`, the source's arithmetic computes it. */
  lemma Offset32AgreesWithoutOverflow(page: int, pageSize: int)
    requires Int32.InRange(page) && Int32.InRange(pageSize)
    requires page >= 1 && pageSize >= 0
    requires Offset(page, pageSize) <= Int32.Max
    ensures Offset32(page, pageSize) == Offset(page, pageSize)
  {
  }

  /** Page 65537 of size 65536 wraps round to offset 0, the start of page 1. */
  lemma Offset32WrapsToFirstPage()
    ensures Offset(65537, 65536) == 0x1_0000_0000
    ensures Offset32(65537, 65536) == 0
  {
  }

  /** Page 32769 of size 65536 wraps round to a negative offset. */
  lemma Offset32WrapsNegative()
    ensures Offset32(32769, 65536) == Int32.Min
  {
  }

  /** The page that holds row `row` of the whole result: the row lies inside that page's window. */
  function PageOf(row: nat, pageSize: int): (p: int)
    requires pageSize >= 1
    ensures p >= 1
    ensures Offset(p, pageSize) <= row < Offset(p, pageSize) + pageSize
  {
    row / pageSize + 1
  }
}

=== FILE: parity.dfy ===
/**
 * The two repositories against the same data: the SQL queries mean what the LINQ pipeline
 * computes, for the count and for every page, and where they part ways.
 */
module Parity {
  import opened Outcomes
  import opened Entities
  import opened Seqs
  import opened Sorting
  import Paging
  import Local = LocalRepository
  import Remote = RemoteRepository

  /** The in-memory documents hold exactly the rows of dbo.scores, mapped field by field. */
  predicate SameScores(db: Remote.Database, store: Local.Store) {
    store.scores == Map(Remote.ScoreOfRow, db.scores)
  }

  /** Each WHERE shape the page query can choose selects exactly the rows the LINQ predicate keeps. */
  lemma ShapeMeansPredicate(mode: NullableString, region: NullableString, row: Remote.ScoreRow)
    ensures Remote.Holds(Remote.FetchShape(mode, region), row)
        <==> Local.Matches(Remote.ScoreOfRow(row), mode, region)
  {
  }

  /** Filtering rows by a shape that means the LINQ predicate, then mapping them, gives the scores Where keeps. */
  lemma {:induction false} SelectIsWhere(table: seq<Remote.ScoreRow>, shape: Remote.Shape, mode: NullableString, region: NullableString)
    requires forall row :: Remote.Holds(shape, row) <==> Local.Matches(Remote.ScoreOfRow(row), mode, region)
    ensures Map(Remote.ScoreOfRow, Remote.Select(table, shape))
         == Local.Where(Map(Remote.ScoreOfRow, table), mode, region)
  {
    if |table| > 0 {
      var mapped := Map(Remote.ScoreOfRow, table);
      var head := if Remote.Holds(shape, table[0]) then [table[0]] else [];
      var rest := Remote.Select(table[1..], shape);
      var mappedHead := if Local.Matches(mapped[0], mode, region) then [mapped[0]] else [];
      assert Map(Remote.ScoreOfRow, head) == mappedHead;
      calc {
        Map(Remote.ScoreOfRow, Remote.Select(table, shape));
        Map(Remote.ScoreOfRow, head + rest);
        { MapConcat(Remote.ScoreOfRow, head, rest); }
        mappedHead + Map(Remote.ScoreOfRow, rest);
        { SelectIsWhere(table[1..], shape, mode, region); }
        mappedHead + Local.Where(Map(Remote.ScoreOfRow, table[1..]), mode, region);
        { assert mapped[1..] == Map(Remote.ScoreOfRow, table[1..]); }
        mappedHead + Local.Where(mapped[1..], mode, region);
        Local.Where(mapped, mode, region);
      }
    }
  }

  /** The page query's shape selects exactly what the LINQ predicate keeps. */
  lemma FetchShapeSelectsWhere(table: seq<Remote.ScoreRow>, mode: NullableString, region: NullableString)
    ensures Map(Remote.ScoreOfRow, Remote.Select(table, Remote.FetchShape(mode, region)))
         == Local.Where(Map(Remote.ScoreOfRow, table), mode, region)
  {
    forall row ensures Remote.Holds(Remote.FetchShape(mode, region), row) <==> Local.Matches(Remote.ScoreOfRow(row), mode, region) {
      ShapeMeansPredicate(mode, region, row);
    }
    SelectIsWhere(table, Remote.FetchShape(mode, region), mode, region);
  }

  /** OFFSET (page - 1) * pageSize ROWS FETCH NEXT pageSize ROWS is Skip((page - 1) * pageSize).Take(pageSize). */
  lemma OffsetFetchIsSkipTake(ordered: seq<Remote.ScoreRow>, page: int, pageSize: int)
    requires page >= 1 && pageSize >= 0
    ensures Remote.OffsetFetch(ordered, Paging.Offset(page, pageSize), pageSize)
         == Take(Skip(ordered, Paging.Offset(page, pageSize)), pageSize)
  {
    SkipTakeIsSlice(ordered, Paging.Offset(page, pageSize), pageSize);
  }

  /** The page query's rows, before the window, are the in-memory leaderboard for the filter. */
  lemma OrderedRowsAreRanked(db: Remote.Database, store: Local.Store, mode: NullableString, region: NullableString)
    requires SameScores(db, store)
    ensures Map(Remote.ScoreOfRow, SortDesc(Remote.Select(db.scores, Remote.FetchShape(mode, region)), Remote.ScoreColumn))
         == Local.Ranked(store, mode, region)
  {
    var selected := Remote.Select(db.scores, Remote.FetchShape(mode, region));
    FetchShapeSelectsWhere(db.scores, mode, region);
    SortCommutesWithMap(Remote.ScoreOfRow, selected, Remote.ScoreColumn, HighScoreOf);
  }

  /** Both backends return the same page for every filter and every page of at least one row. */
  lemma ScoresAgree(db: Remote.Database, store: Local.Store, mode: NullableString, region: NullableString, page: int, pageSize: int)
    requires SameScores(db, store)
    requires page >= 1 && pageSize >= 1
    ensures Remote.GetScores(db, mode, region, page, pageSize) == Ok(Local.GetScores(store, mode, region, page, pageSize))
  {
    var from := Paging.Offset(page, pageSize);
    var ordered := SortDesc(Remote.Select(db.scores, Remote.FetchShape(mode, region)), Remote.ScoreColumn);
    assert Remote.GetScores(db, mode, region, page, pageSize)
        == Ok(Map(Remote.ScoreOfRow, Remote.OffsetFetch(ordered, from, pageSize)));
    OffsetFetchIsSkipTake(ordered, page, pageSize);
    MapSkipTake(Remote.ScoreOfRow, ordered, from, pageSize);
    OrderedRowsAreRanked(db, store, mode, region);
  }

  /** Both backends count the same number of scores for every filter. */
  lemma CountsAgree(db: Remote.Database, store: Local.Store, mode: NullableString, region: NullableString)
    requires SameScores(db, store)
    ensures Remote.CountScores(db, mode, region) == Ok(Local.CountScores(store, mode, region))
  {
    FetchShapeSelectsWhere(db.scores, mode, region);
  }

  /** A page size of zero is an empty page in memory but a failed query in SQL. */
  lemma ZeroPageSizeDiverges(db: Remote.Database, store: Local.Store, mode: NullableString, region: NullableString, page: int)
    requires page >= 1
    ensures Local.GetScores(store, mode, region, page, 0) == []
    ensures Remote.GetScores(db, mode, region, page, 0) == Err(FetchNotPositive)
  {
  }

  /**
   * ORDER BY score DESC leaves the order of tied rows to the engine. Whatever order it picks,
   * as long as it is a descending arrangement of the selected rows, every position holds the
   * same score value as the order modelled here.
   */
  lemma TieOrderDoesNotChangeScores(table: seq<Remote.ScoreRow>, shape: Remote.Shape, engineOrder: seq<Remote.ScoreRow>)
    requires multiset(engineOrder) == multiset(Remote.Select(table, shape))
    requires Descending(engineOrder, Remote.ScoreColumn)
    ensures var modelled := SortDesc(Remote.Select(table, shape), Remote.ScoreColumn);
      |engineOrder| == |modelled| && forall i :: 0 <= i < |modelled| ==> engineOrder[i].score == modelled[i].score
  {
    var modelled := SortDesc(Remote.Select(table, shape), Remote.ScoreColumn);
    DescendingPermutationsAgreeOnKeys(engineOrder, modelled, Remote.ScoreColumn);
  }

  /**
   * Two tied rows: each query may order them its own way, so page 1 under one order and
   * page 2 under the other both show the same row and the other row is on neither page.
   */
  lemma TiedRowsCanRepeatAcrossPages(a: Remote.ScoreRow, b: Remote.ScoreRow)
    requires a != b && a.score == b.score
    ensures multiset([a, b]) == multiset([b, a])
    ensures Descending([a, b], Remote.ScoreColumn) && Descending([b, a], Remote.ScoreColumn)
    ensures Remote.OffsetFetch([b, a], Paging.Offset(1, 1), 1) == [b]
    ensures Remote.OffsetFetch([a, b], Paging.Offset(2, 1), 1) == [b]
  {
  }

  /**
   * A profile id that no record carries: the in-memory lookup fails, the SQL lookup returns
   * a profile whose id is still null.
   */
  lemma MissingProfileDiverges(db: Remote.Database, store: Local.Store, profileId: string)
    requires forall i :: 0 <= i < |db.profiles| ==> db.profiles[i].id != profileId
    requires forall i :: 0 <= i < |store.profiles| ==> store.profiles[i].id != Str(profileId)
    ensures Local.GetProfile(store, profileId) == Err(NoMatch)
    ensures Remote.GetProfile(db, profileId).Ok? && Remote.GetProfile(db, profileId).value.id == Null
  {
    NoProfileWithId(store.profiles, profileId);
  }

  lemma NoProfileWithId(profiles: seq<Profile>, profileId: string)
    requires forall i :: 0 <= i < |profiles| ==> profiles[i].id != Str(profileId)
    ensures Local.CountWithId(profiles, profileId) == 0
  {
    if |profiles| > 0 {
      NoProfileWithId(profiles[1..], profileId);
    }
  }
}

=== FILE: remote_repository.dfy ===
/**
 * RemoteDBRepository: the same operations answered by SQL queries. Each query is a value of
 * a small datatype (its WHERE shape and its OFFSET/FETCH window) with a meaning over tables
 * of rows, in place of the query text the source formats.
 */
module RemoteRepository {
  import opened Outcomes
  import opened Entities
  import opened Seqs
  import opened Sorting
  import Paging
  import Int32

  /** A row of dbo.scores; the ranking column is named `score`. */
  datatype ScoreRow = ScoreRow(id: string, profileId: string, gameMode: string, gameRegion: string, score: int)

  /** A row of dbo.Profiles. */
  datatype ProfileRow = ProfileRow(id: string, userName: string, avatarUrl: string)

  /** A row of dbo.Achievements. */
  datatype AchievementRow = AchievementRow(id: int, description: string)

  /** A row of dbo.ProfileAchievements: the profile holds the achievement. */
  datatype MembershipRow = MembershipRow(profileId: string, achievementId: int)

  datatype Database = Database(
    scores: seq<ScoreRow>,
    profiles: seq<ProfileRow>,
    achievements: seq<AchievementRow>,
    memberships: seq<MembershipRow>)

  /** The four WHERE clauses the score queries use. */
  datatype Shape =
    | Unfiltered
    | RegionOnly(region: string)
    | ModeOnly(mode: string)
    | ModeAndRegion(mode: string, region: string)

  /** SELECT * FROM dbo.scores WHERE .. ORDER BY score DESC OFFSET offset ROWS FETCH NEXT fetch ROWS ONLY */
  datatype FetchQuery = FetchQuery(where: Shape, offset: int, fetch: int)

  /** SELECT count(*) FROM scores WHERE .. */
  datatype CountQuery = CountQuery(where: Shape)

  // ---------------------------------------------------------------- row semantics

  /** Whether a row satisfies a WHERE clause. */
  predicate Holds(shape: Shape, row: ScoreRow) {
    match shape
    case Unfiltered => true
    case RegionOnly(region) => row.gameRegion == region
    case ModeOnly(mode) => row.gameMode == mode
    case ModeAndRegion(mode, region) => row.gameMode == mode && row.gameRegion == region
  }

  /** The rows a WHERE clause selects, in table order. */
  function Select(table: seq<ScoreRow>, shape: Shape): (r: seq<ScoreRow>)
    ensures forall row :: multiset(r)[row] == if Holds(shape, row) then multiset(table)[row] else 0
  {
    if |table| == 0 then []
    else
      assert table == [table[0]] + table[1..];
      (if Holds(shape, table[0]) then [table[0]] else []) + Select(table[1..], shape)
  }

  /** The ORDER BY column. */
  function ScoreColumn(row: ScoreRow): int {
    row.score
  }

  /** The OFFSET/FETCH window: fetch rows starting at row offset, fewer at the end, none past it. */
  function OffsetFetch(ordered: seq<ScoreRow>, offset: nat, fetch: nat): (r: seq<ScoreRow>)
    ensures |r| <= fetch
    ensures forall i :: 0 <= i < |r| ==> offset + i < |ordered| && r[i] == ordered[offset + i]
    ensures |r| == if offset >= |ordered| then 0 else Min(fetch, |ordered| - offset)
  {
    if offset >= |ordered| then [] else ordered[offset..Min(offset + fetch, |ordered|)]
  }

  /**
   * ORDER BY score DESC, then the OFFSET/FETCH window. SQL Server refuses a negative OFFSET
   * and a FETCH of fewer than one row. Ties are taken in table order.
   */
  function RunFetch(q: FetchQuery, table: seq<ScoreRow>): (r: Result<seq<ScoreRow>>)
    ensures r.Ok? <==> q.offset >= 0 && q.fetch >= 1
    ensures q.offset < 0 ==> r == Err(NegativeOffset)
    ensures q.offset >= 0 && q.fetch < 1 ==> r == Err(FetchNotPositive)
    ensures r.Ok? ==> |r.value| <= q.fetch
    ensures r.Ok? ==> Descending(r.value, ScoreColumn)
    ensures r.Ok? ==> forall i :: 0 <= i < |r.value| ==> Holds(q.where, r.value[i])
  {
    if q.offset < 0 then Err(NegativeOffset)
    else if q.fetch < 1 then Err(FetchNotPositive)
    else
      WindowKeepsOrderAndFilter(table, q.where, q.offset, q.fetch);
      Ok(OffsetFetch(SortDesc(Select(table, q.where), ScoreColumn), q.offset, q.fetch))
  }

  /** count(*): one step per table row. */
  function RunCount(q: CountQuery, table: seq<ScoreRow>): (n: nat)
    ensures n == |Select(table, q.where)|
    ensures n <= |table|
  {
    if |table| == 0 then 0
    else (if Holds(q.where, table[0]) then 1 else 0) + RunCount(q, table[1..])
  }

  // ---------------------------------------------------------------- query choice

  /**
   * The WHERE clause of the page query: start from no filter, then three `if`s in turn,
   * each testing both filters for null or empty.
   */
  function FetchShape(mode: NullableString, region: NullableString): (r: Shape)
    ensures r.Unfiltered? <==> IsNullOrEmpty(mode) && IsNullOrEmpty(region)
    ensures r.RegionOnly? <==> IsNullOrEmpty(mode) && !IsNullOrEmpty(region)
    ensures r.ModeOnly? <==> !IsNullOrEmpty(mode) && IsNullOrEmpty(region)
    ensures r.ModeAndRegion? <==> !IsNullOrEmpty(mode) && !IsNullOrEmpty(region)
    ensures (r.RegionOnly? || r.ModeAndRegion?) ==> r.region == region.chars != ""
    ensures (r.ModeOnly? || r.ModeAndRegion?) ==> r.mode == mode.chars != ""
  {
    var unfiltered := Unfiltered;
    var afterRegion := if IsNullOrEmpty(mode) && !IsNullOrEmpty(region) then RegionOnly(region.chars) else unfiltered;
    var afterMode := if !IsNullOrEmpty(mode) && IsNullOrEmpty(region) then ModeOnly(mode.chars) else afterRegion;
    if !IsNullOrEmpty(mode) && !IsNullOrEmpty(region) then ModeAndRegion(mode.chars, region.chars) else afterMode
  }

  /**
   * The WHERE clause of the count query: start from the empty command text (None), then four
   * `if`s in turn. The four tests cover every case, so the empty text is always replaced.
   */
  function CountShape(mode: NullableString, region: NullableString): (r: Option<Shape>)
    ensures r == Some(FetchShape(mode, region))
  {
    var empty := None;
    var afterNone := if IsNullOrEmpty(mode) && IsNullOrEmpty(region) then Some(Unfiltered) else empty;
    var afterRegion := if IsNullOrEmpty(mode) && !IsNullOrEmpty(region) then Some(RegionOnly(region.chars)) else afterNone;
    var afterMode := if !IsNullOrEmpty(mode) && IsNullOrEmpty(region) then Some(ModeOnly(mode.chars)) else afterRegion;
    if !IsNullOrEmpty(mode) && !IsNullOrEmpty(region) then Some(ModeAndRegion(mode.chars, region.chars)) else afterMode
  }

  /** The page query: OFFSET is the rows of the earlier pages, FETCH is one page. */
  function FetchQueryFor(mode: NullableString, region: NullableString, page: int, pageSize: int): FetchQuery
    requires page >= 1 && pageSize >= 0
  {
    FetchQuery(FetchShape(mode, region), Paging.Offset(page, pageSize), pageSize)
  }

  /** The page query exactly as written: OFFSET computed in wrapping 32-bit arithmetic. */
  function FetchQueryAsWritten(mode: NullableString, region: NullableString, page: int, pageSize: int): FetchQuery
    requires Int32.InRange(page) && Int32.InRange(pageSize)
  {
    FetchQuery(FetchShape(mode, region), Paging.Offset32(page, pageSize), pageSize)
  }

  /** Whenever the offset fits in an `int`, the query as written is the intended one. */
  lemma FetchQueryAsWrittenAgrees(mode: NullableString, region: NullableString, page: int, pageSize: int)
    requires Int32.InRange(page) && Int32.InRange(pageSize)
    requires page >= 1 && pageSize >= 0
    requires Paging.Offset(page, pageSize) <= Int32.Max
    ensures FetchQueryAsWritten(mode, region, page, pageSize) == FetchQueryFor(mode, region, page, pageSize)
  {
    Paging.Offset32AgreesWithoutOverflow(page, pageSize);
  }

  /** Page 32769 of size 65536 wraps to a negative OFFSET, which the database refuses. */
  lemma WrappedOffsetFailsQuery(table: seq<ScoreRow>, mode: NullableString, region: NullableString)
    ensures RunFetch(FetchQueryAsWritten(mode, region, 32769, 65536), table) == Err(NegativeOffset)
  {
    Paging.Offset32WrapsNegative();
  }

  // ---------------------------------------------------------------- row mapping

  /** A score from its row: HighScore from the `score` column, every other field from its namesake. */
  function ScoreOfRow(row: ScoreRow): (s: Score)
    ensures RowOfScore(s) == row
  {
    Score(row.id, row.profileId, row.gameMode, row.gameRegion, row.score)
  }

  /** The row a score is stored as. */
  function RowOfScore(s: Score): ScoreRow {
    ScoreRow(s.id, s.profileId, s.gameMode, s.gameRegion, s.highScore)
  }

  /** The mapping loses nothing in the other direction either. */
  lemma ScoreMappingRoundTrip(s: Score)
    ensures ScoreOfRow(RowOfScore(s)) == s
  {
  }

  // ---------------------------------------------------------------- the operations

  /** GetScoresAsync: run the page query and map every row read to a score. */
  function GetScores(db: Database, mode: NullableString, region: NullableString, page: int, pageSize: int): (r: Result<seq<Score>>)
    requires page >= 1 && pageSize >= 0
    ensures r.Ok? <==> pageSize >= 1
    ensures pageSize == 0 ==> r == Err(FetchNotPositive)
    ensures r.Ok? ==> |r.value| <= pageSize && Descending(r.value, HighScoreOf)
  {
    match RunFetch(FetchQueryFor(mode, region, page, pageSize), db.scores)
    case Ok(rows) => Ok(Map(ScoreOfRow, rows))
    case Err(f) => Err(f)
  }

  /** CountScoresAsync: run the count query. */
  function CountScores(db: Database, mode: NullableString, region: NullableString): (r: Result<nat>)
    ensures r.Ok?
    ensures r.value == |Select(db.scores, FetchShape(mode, region))|
  {
    match CountShape(mode, region)
    case None => Err(EmptyCommand)
    case Some(shape) => Ok(RunCount(CountQuery(shape), db.scores))
  }

  /**
   * The achievements reader loop from slot i on: description row k is written to slot i + k,
   * and a row with no slot left throws.
   */
  function FillFrom(slots: seq<NullableString>, i: nat, rows: seq<string>): (r: Result<seq<NullableString>>)
    requires i <= |slots|
    ensures r.Ok? <==> i + |rows| <= |slots|
    ensures r.Err? ==> r.fault == IndexOutOfRange
    ensures r.Ok? ==> |r.value| == |slots|
    ensures r.Ok? ==> forall k :: 0 <= k < |rows| ==> r.value[i + k] == Str(rows[k])
    ensures r.Ok? ==> forall k :: 0 <= k < |slots| && !(i <= k < i + |rows|) ==> r.value[k] == slots[k]
    decreases |rows|
  {
    if |rows| == 0 then Ok(slots)
    else if i == |slots| then Err(IndexOutOfRange)
    else
      var r := FillFrom(slots[i := Str(rows[0])], i + 1, rows[1..]);
      assert r.Ok? ==> forall k :: 1 <= k < |rows| ==> r.value[i + k] == Str(rows[k]) by {
        if r.Ok? {
          forall k | 1 <= k < |rows| ensures r.value[i + k] == Str(rows[k]) {
            assert r.value[(i + 1) + (k - 1)] == Str(rows[1..][k - 1]);
          }
        }
      }
      r
  }

  /**
   * `new string[recordCount]` filled from the description rows: an array of exactly recordCount
   * slots, row i in slot i, null in the slots no row reached; more rows than slots is a failure.
   */
  function FillAchievements(recordCount: nat, rows: seq<string>): (r: Result<seq<NullableString>>)
    ensures r.Ok? <==> |rows| <= recordCount
    ensures r.Err? ==> r.fault == IndexOutOfRange
    ensures r.Ok? ==> |r.value| == recordCount
    ensures r.Ok? ==> forall k :: 0 <= k < |rows| ==> r.value[k] == Str(rows[k])
    ensures r.Ok? ==> forall k :: |rows| <= k < recordCount ==> r.value[k] == Null
  {
    FillFrom(seq(recordCount, _ => Null), 0, rows)
  }

  /** The descriptions of the achievements with this id, in table order. */
  function DescriptionsWithId(achievements: seq<AchievementRow>, id: int): (r: seq<string>)
    ensures |r| <= |achievements|
    ensures forall d :: d in r <==>
      exists j :: 0 <= j < |achievements| && achievements[j].id == id && achievements[j].description == d
  {
    if |achievements| == 0 then []
    else
      var here := if achievements[0].id == id then [achievements[0].description] else [];
      here + DescriptionsWithId(achievements[1..], id)
  }

  /** Achievements a JOIN ProfileAchievements pa ON a.id = pa.achievementid WHERE pa.profileid = profileId. */
  function JoinAchievements(memberships: seq<MembershipRow>, achievements: seq<AchievementRow>, profileId: string): (r: seq<string>)
    ensures forall d :: d in r <==>
      exists i, j :: && 0 <= i < |memberships| && 0 <= j < |achievements|
                     && memberships[i].profileId == profileId
                     && achievements[j].id == memberships[i].achievementId
                     && achievements[j].description == d
  {
    if |memberships| == 0 then []
    else
      var pa := memberships[0];
      var here := if pa.profileId == profileId then DescriptionsWithId(achievements, pa.achievementId) else [];
      here + JoinAchievements(memberships[1..], achievements, profileId)
  }

  /** The join reads the membership table row by row: splitting the table splits the result. */
  lemma {:induction false} JoinConcat(m1: seq<MembershipRow>, m2: seq<MembershipRow>, achievements: seq<AchievementRow>, profileId: string)
    ensures JoinAchievements(m1 + m2, achievements, profileId)
         == JoinAchievements(m1, achievements, profileId) + JoinAchievements(m2, achievements, profileId)
  {
    if |m1| > 0 {
      assert (m1 + m2)[0] == m1[0] && (m1 + m2)[1..] == m1[1..] + m2;
      JoinConcat(m1[1..], m2, achievements, profileId);
    } else {
      assert m1 + m2 == m2;
    }
  }

  /** dbo.Achievements keyed by id: no two rows share one. */
  predicate UniqueIds(achievements: seq<AchievementRow>) {
    forall i, j :: 0 <= i < j < |achievements| ==> achievements[i].id != achievements[j].id
  }

  /** With ids unique, the achievement a membership names contributes exactly its one description. */
  lemma {:induction false} KeyedDescription(achievements: seq<AchievementRow>, j: int)
    requires UniqueIds(achievements) && 0 <= j < |achievements|
    ensures DescriptionsWithId(achievements, achievements[j].id) == [achievements[j].description]
  {
    var id := achievements[j].id;
    var tail := achievements[1..];
    assert UniqueIds(tail) by {
      forall a, b | 0 <= a < b < |tail| ensures tail[a].id != tail[b].id {
        assert tail[a] == achievements[a + 1] && tail[b] == achievements[b + 1];
      }
    }
    if j == 0 {
      NoDescriptionsWithoutId(tail, id);
    } else {
      assert achievements[0].id != id;
      assert tail[j - 1] == achievements[j];
      KeyedDescription(tail, j - 1);
    }
  }

  /** An id no achievement row carries has no description. */
  lemma {:induction false} NoDescriptionsWithoutId(achievements: seq<AchievementRow>, id: int)
    requires forall j :: 0 <= j < |achievements| ==> achievements[j].id != id
    ensures DescriptionsWithId(achievements, id) == []
  {
    if |achievements| > 0 {
      assert forall j :: 0 <= j < |achievements[1..]| ==> achievements[1..][j] == achievements[j + 1];
      NoDescriptionsWithoutId(achievements[1..], id);
    }
  }

  /** The memberships of one profile, in table order. */
  function MembershipsOf(memberships: seq<MembershipRow>, profileId: string): (r: seq<MembershipRow>)
    ensures forall m :: m in r <==> m in memberships && m.profileId == profileId
  {
    if |memberships| == 0 then []
    else
      (if memberships[0].profileId == profileId then [memberships[0]] else [])
        + MembershipsOf(memberships[1..], profileId)
  }

  /** Every membership names an achievement that exists (the foreign key holds). */
  predicate ForeignKeysHold(memberships: seq<MembershipRow>, achievements: seq<AchievementRow>) {
    forall i :: 0 <= i < |memberships| ==>
      exists j :: 0 <= j < |achievements| && achievements[j].id == memberships[i].achievementId
  }

  /**
   * With the keys intact, the join yields one description per membership of the profile, so
   * the count query's recordCount is the number of that profile's memberships.
   */
  lemma {:induction false} OneDescriptionPerMembership(memberships: seq<MembershipRow>, achievements: seq<AchievementRow>, profileId: string)
    requires UniqueIds(achievements) && ForeignKeysHold(memberships, achievements)
    ensures |JoinAchievements(memberships, achievements, profileId)| == |MembershipsOf(memberships, profileId)|
  {
    if |memberships| > 0 {
      var pa, tail := memberships[0], memberships[1..];
      assert ForeignKeysHold(tail, achievements) by {
        forall i | 0 <= i < |tail|
          ensures exists j :: 0 <= j < |achievements| && achievements[j].id == tail[i].achievementId
        {
          assert tail[i] == memberships[i + 1];
        }
      }
      OneDescriptionPerMembership(tail, achievements, profileId);
      if pa.profileId == profileId {
        assert exists j :: 0 <= j < |achievements| && achievements[j].id == memberships[0].achievementId;
        var j :| 0 <= j < |achievements| && achievements[j].id == pa.achievementId;
        KeyedDescription(achievements, j);
      }
    }
  }

  /** SELECT * FROM dbo.Profiles WHERE id = profileId: the rows with that id, in table order. */
  function ProfilesWithId(profiles: seq<ProfileRow>, profileId: string): (r: seq<ProfileRow>)
    ensures forall i :: 0 <= i < |r| ==> r[i].id == profileId
  {
    if |profiles| == 0 then []
    else (if profiles[0].id == profileId then [profiles[0]] else []) + ProfilesWithId(profiles[1..], profileId)
  }

  /** The lookup keeps exactly the rows with the id, each as often as the table holds it. */
  lemma {:induction false} ProfilesWithIdIsFilter(profiles: seq<ProfileRow>, profileId: string)
    ensures forall p :: multiset(ProfilesWithId(profiles, profileId))[p]
                     == if p.id == profileId then multiset(profiles)[p] else 0
  {
    if |profiles| > 0 {
      assert profiles == [profiles[0]] + profiles[1..];
      ProfilesWithIdIsFilter(profiles[1..], profileId);
    }
  }

  /** Row k is the last row of the table that carries the id. */
  predicate IsLastWithId(profiles: seq<ProfileRow>, profileId: string, k: int) {
    && 0 <= k < |profiles|
    && profiles[k].id == profileId
    && forall j :: k < j < |profiles| ==> profiles[j].id != profileId
  }

  /** The last row the lookup reads is the last row of the table with the id. */
  lemma {:induction false} LastRowReadIsLastMatch(profiles: seq<ProfileRow>, profileId: string, k: int)
    requires IsLastWithId(profiles, profileId, k)
    ensures var rows := ProfilesWithId(profiles, profileId);
      |rows| > 0 && rows[|rows| - 1] == profiles[k]
  {
    var tail := profiles[1..];
    var rest := ProfilesWithId(tail, profileId);
    var head := if profiles[0].id == profileId then [profiles[0]] else [];
    assert ProfilesWithId(profiles, profileId) == head + rest;
    if k == 0 {
      assert rest == [] by {
        assert forall i :: 0 <= i < |tail| ==> tail[i].id != profileId by {
          forall i | 0 <= i < |tail| ensures tail[i].id != profileId {
            assert tail[i] == profiles[i + 1];
          }
        }
        NoRowsWithoutMatch(tail, profileId);
      }
      assert head == [profiles[0]];
    } else {
      assert IsLastWithId(tail, profileId, k - 1) by {
        assert tail[k - 1] == profiles[k];
        forall j | k - 1 < j < |tail| ensures tail[j].id != profileId {
          assert tail[j] == profiles[j + 1];
        }
      }
      LastRowReadIsLastMatch(tail, profileId, k - 1);
      assert |rest| > 0 && rest[|rest| - 1] == profiles[k];
      assert (head + rest)[|head + rest| - 1] == rest[|rest| - 1];
    }
  }

  /** A table holding a row with the id has a last such row. */
  lemma {:induction false} LastMatchExists(profiles: seq<ProfileRow>, profileId: string, i: int) returns (k: int)
    requires 0 <= i < |profiles| && profiles[i].id == profileId
    ensures IsLastWithId(profiles, profileId, k)
    decreases |profiles| - i
  {
    if forall j :: i < j < |profiles| ==> profiles[j].id != profileId {
      k := i;
    } else {
      var j :| i < j < |profiles| && profiles[j].id == profileId;
      k := LastMatchExists(profiles, profileId, j);
    }
  }

  /** One pass of the property copy: every property but Achievements from the column of its name. */
  function CopyColumns(row: ProfileRow, user: Profile): Profile {
    user.(id := Str(row.id), userName := Str(row.userName), avatarUrl := Str(row.avatarUrl))
  }

  /** The profile reader loop: each row read overwrites the copied properties, so the last row wins. */
  function ReadProfileRows(rows: seq<ProfileRow>, user: Profile): (r: Profile)
    ensures r.achievements == user.achievements
    ensures |rows| == 0 ==> r == user
    ensures |rows| > 0 ==> r == CopyColumns(rows[|rows| - 1], user)
  {
    if |rows| == 0 then user
    else ReadProfileRows(rows[1..], CopyColumns(rows[0], user))
  }

  /**
   * GetProfileAsync from the results of its three queries: the profile rows matched, the
   * achievement count, and the description rows. Nothing makes the last two agree, since the
   * queries are separate reads.
   */
  function AssembleProfile(rows: seq<ProfileRow>, recordCount: nat, descriptions: seq<string>): (r: Result<Profile>)
    ensures r.Ok? <==> |descriptions| <= recordCount
    ensures r.Err? ==> r.fault == IndexOutOfRange
    ensures r.Ok? && |rows| == 0 ==> r.value.id == Null && r.value.userName == Null && r.value.avatarUrl == Null
    ensures r.Ok? && |rows| > 0 ==>
      var last := rows[|rows| - 1];
      r.value.id == Str(last.id) && r.value.userName == Str(last.userName) && r.value.avatarUrl == Str(last.avatarUrl)
    ensures r.Ok? ==> |r.value.achievements| == recordCount
    ensures r.Ok? ==> forall k :: 0 <= k < |descriptions| ==> r.value.achievements[k] == Str(descriptions[k])
    ensures r.Ok? ==> forall k :: |descriptions| <= k < recordCount ==> r.value.achievements[k] == Null
  {
    var user := ReadProfileRows(rows, BlankProfile);
    match FillAchievements(recordCount, descriptions)
    case Ok(slots) => Ok(user.(achievements := slots))
    case Err(f) => Err(f)
  }

  /** GetProfileAsync against one unchanging database: the count and the descriptions come from the same join. */
  function GetProfile(db: Database, profileId: string): (r: Result<Profile>)
    ensures r.Ok?
    ensures r.value.achievements == Map(d => Str(d), JoinAchievements(db.memberships, db.achievements, profileId))
    ensures (forall i :: 0 <= i < |db.profiles| ==> db.profiles[i].id != profileId) ==>
      r.value.id == Null && r.value.userName == Null && r.value.avatarUrl == Null
    ensures r.value.id.Str? ==> r.value.id == Str(profileId)
    ensures (exists i :: 0 <= i < |db.profiles| && db.profiles[i].id == profileId) ==> r.value.id == Str(profileId)
    ensures forall k :: IsLastWithId(db.profiles, profileId, k) ==>
      r.value.userName == Str(db.profiles[k].userName) && r.value.avatarUrl == Str(db.profiles[k].avatarUrl)
  {
    var descriptions := JoinAchievements(db.memberships, db.achievements, profileId);
    var rows := ProfilesWithId(db.profiles, profileId);
    RowsReadForId(db.profiles, profileId);
    AssembleProfile(rows, |descriptions|, descriptions)
  }

  // ---------------------------------------------------------------- helper facts

  /** What the reader loop sees: no rows for an unknown id, and otherwise ending with the last match. */
  lemma RowsReadForId(profiles: seq<ProfileRow>, profileId: string)
    ensures var rows := ProfilesWithId(profiles, profileId);
      && ((forall i :: 0 <= i < |profiles| ==> profiles[i].id != profileId) ==> rows == [])
      && ((exists i :: 0 <= i < |profiles| && profiles[i].id == profileId) ==> |rows| > 0)
      && (forall k :: IsLastWithId(profiles, profileId, k) ==> |rows| > 0 && rows[|rows| - 1] == profiles[k])
  {
    var rows := ProfilesWithId(profiles, profileId);
    NoRowsWithoutMatch(profiles, profileId);
    forall k | IsLastWithId(profiles, profileId, k) ensures |rows| > 0 && rows[|rows| - 1] == profiles[k] {
      LastRowReadIsLastMatch(profiles, profileId, k);
    }
    if exists i :: 0 <= i < |profiles| && profiles[i].id == profileId {
      var i :| 0 <= i < |profiles| && profiles[i].id == profileId;
      var k := LastMatchExists(profiles, profileId, i);
      LastRowReadIsLastMatch(profiles, profileId, k);
    }
  }

  lemma NoRowsWithoutMatch(profiles: seq<ProfileRow>, profileId: string)
    ensures (forall i :: 0 <= i < |profiles| ==> profiles[i].id != profileId) ==> ProfilesWithId(profiles, profileId) == []
  {
    if |profiles| > 0 {
      NoRowsWithoutMatch(profiles[1..], profileId);
    }
  }

  /** A window of the ordered selection is still in order and still satisfies the WHERE clause. */
  lemma WindowKeepsOrderAndFilter(table: seq<ScoreRow>, shape: Shape, offset: nat, fetch: nat)
    ensures var window := OffsetFetch(SortDesc(Select(table, shape), ScoreColumn), offset, fetch);
      && Descending(window, ScoreColumn)
      && forall i :: 0 <= i < |window| ==> Holds(shape, window[i])
  {
    SortedSelectionHolds(table, shape);
    WindowOfOrderedRows(SortDesc(Select(table, shape), ScoreColumn), shape, offset, fetch);
  }

  /** The same for any descending sequence of rows that all satisfy the clause. */
  lemma WindowOfOrderedRows(ordered: seq<ScoreRow>, shape: Shape, offset: nat, fetch: nat)
    requires Descending(ordered, ScoreColumn)
    requires forall i :: 0 <= i < |ordered| ==> Holds(shape, ordered[i])
    ensures var window := OffsetFetch(ordered, offset, fetch);
      && Descending(window, ScoreColumn)
      && forall i :: 0 <= i < |window| ==> Holds(shape, window[i])
  {
    var window := OffsetFetch(ordered, offset, fetch);
    WindowKeepsDescending(ordered, window, ScoreColumn, offset);
    forall i | 0 <= i < |window| ensures Holds(shape, window[i]) {
      assert window[i] == ordered[offset + i];
    }
  }

  /** Every row of the ordered selection satisfies the WHERE clause. */
  lemma SortedSelectionHolds(table: seq<ScoreRow>, shape: Shape)
    ensures var ordered := SortDesc(Select(table, shape), ScoreColumn);
      forall i :: 0 <= i < |ordered| ==> Holds(shape, ordered[i])
  {
    var ordered := SortDesc(Select(table, shape), ScoreColumn);
    forall i | 0 <= i < |ordered| ensures Holds(shape, ordered[i]) {
      assert ordered[i] in multiset(ordered);
    }
  }
}

=== FILE: seqs.dfy ===
/** Sequence operations the LINQ pipeline and the SQL window are built from. */
module Seqs {

  function Min(a: int, b: int): int {
    if a <= b then a else b
  }

  /** Select: f applied to every element, in order. */
  function Map<A, B>(f: A -> B, xs: seq<A>): (r: seq<B>)
    ensures |r| == |xs|
    ensures forall i :: 0 <= i < |xs| ==> r[i] == f(xs[i])
  {
    seq(|xs|, i requires 0 <= i < |xs| => f(xs[i]))
  }

  lemma MapConcat<A, B>(f: A -> B, a: seq<A>, b: seq<A>)
    ensures Map(f, a + b) == Map(f, a) + Map(f, b)
  {
  }

  lemma MapSkipTake<A, B>(f: A -> B, xs: seq<A>, skip: int, take: int)
    ensures Map(f, Take(Skip(xs, skip), take)) == Take(Skip(Map(f, xs), skip), take)
  {
    var inner := Skip(xs, skip);
    assert Map(f, inner) == Skip(Map(f, xs), skip);
  }

  /** Enumerable.Skip: a count at or below zero skips nothing; one at or past the end leaves nothing. */
  function Skip<T>(xs: seq<T>, count: int): (r: seq<T>)
    ensures |r| == if count <= 0 then |xs| else if count >= |xs| then 0 else |xs| - count
    ensures xs == xs[..|xs| - |r|] + r
  {
    if count <= 0 then xs
    else if count >= |xs| then []
    else xs[count..]
  }

  /** Enumerable.Take: a count at or below zero takes nothing; one past the end takes everything. */
  function Take<T>(xs: seq<T>, count: int): (r: seq<T>)
    ensures |r| == if count <= 0 then 0 else Min(count, |xs|)
    ensures r <= xs
  {
    if count <= 0 then []
    else if count >= |xs| then xs
    else xs[..count]
  }

  /** No element occurs at two positions. */
  ghost predicate Distinct<T>(s: seq<T>) {
    forall i, j :: 0 <= i < j < |s| ==> s[i] != s[j]
  }

  /** w is the run of xs that starts at position from: element i of w is element from + i of xs. */
  ghost predicate IsWindowOf<T>(w: seq<T>, xs: seq<T>, from: nat) {
    forall i :: 0 <= i < |w| ==> from + i < |xs| && w[i] == xs[from + i]
  }

  /** One element of a window, read back in the whole sequence. */
  lemma WindowAt<T>(w: seq<T>, xs: seq<T>, from: nat, i: int)
    requires IsWindowOf(w, xs, from) && 0 <= i < |w|
    ensures from + i < |xs| && w[i] == xs[from + i]
  {
  }

  /** A new element in front of a sequence without repeats, and not already in it, adds no repeat. */
  lemma ConsKeepsDistinct<T>(h: T, t: seq<T>)
    requires Distinct(t) && h !in t
    ensures Distinct([h] + t)
  {
    var r := [h] + t;
    forall i, j | 0 <= i < j < |r| ensures r[i] != r[j] {
      assert r[j] == t[j - 1];
      if i > 0 {
        assert r[i] == t[i - 1];
      }
    }
  }

  /** Two windows of a sequence without repeats share no element when the first ends before the second starts. */
  lemma DisjointWindows<T>(xs: seq<T>, u: seq<T>, a: nat, w: seq<T>, b: nat)
    requires Distinct(xs)
    requires IsWindowOf(u, xs, a) && IsWindowOf(w, xs, b)
    requires a + |u| <= b
    ensures forall y :: y in u ==> y !in w
  {
    forall y | y in u ensures y !in w {
      var i :| 0 <= i < |u| && u[i] == y;
      forall j | 0 <= j < |w| ensures w[j] != y {
        WindowAt(u, xs, a, i);
        WindowAt(w, xs, b, j);
      }
    }
  }

  /** Skipping a non-negative count and taking a non-negative count cuts out one contiguous slice. */
  lemma SkipTakeIsSlice<T>(xs: seq<T>, skip: int, take: int)
    requires skip >= 0 && take >= 0
    ensures Take(Skip(xs, skip), take) == xs[Min(skip, |xs|)..Min(skip + take, |xs|)]
  {
  }

  /** Element i of the window is element skip + i of the whole sequence. */
  lemma WindowIndex<T>(xs: seq<T>, skip: int, take: int)
    requires skip >= 0 && take >= 0
    ensures var w := Take(Skip(xs, skip), take);
      && |w| == (if skip >= |xs| then 0 else Min(take, |xs| - skip))
      && IsWindowOf(w, xs, skip)
  {
    SkipTakeIsSlice(xs, skip, take);
  }

  /** Skipping twice is skipping the sum. */
  lemma SkipSkip<T>(xs: seq<T>, m: nat, n: nat)
    ensures Skip(Skip(xs, m), n) == Skip(xs, m + n)
  {
  }

  /** The first n elements, then the n after them, are the first 2 * n elements. */
  lemma TakeTwice<T>(s: seq<T>, n: nat)
    ensures Take(s, n) + Take(Skip(s, n), n) == Take(s, 2 * n)
  {
    if n > 0 && n < |s| {
      var rest := Skip(s, n);
      assert rest == s[n..];
      if 2 * n >= |s| {
        assert Take(rest, n) == s[n..];
        assert s[..n] + s[n..] == s;
      } else {
        assert Take(rest, n) == s[n..2 * n];
        assert s[..n] + s[n..2 * n] == s[..2 * n];
      }
    }
  }

  /** Two windows of the same width that touch make one window of twice the width. */
  lemma AdjacentWindows<T>(xs: seq<T>, skip: int, take: int)
    requires skip >= 0 && take >= 0
    ensures Take(Skip(xs, skip), take) + Take(Skip(xs, skip + take), take)
         == Take(Skip(xs, skip), 2 * take)
  {
    SkipSkip(xs, skip, take);
    TakeTwice(Skip(xs, skip), take);
  }
}

=== FILE: sorting.dfy ===
/**
 * OrderByDescending over an integer key: a stable sort, highest key first.
 * Written as an insertion sort so that the stability argument is one induction.
 */
module Sorting {
  import opened Seqs

  /** Non-increasing in key: every element ranks at least as high as every later one. */
  predicate Descending<T>(s: seq<T>, key: T -> int) {
    forall i, j :: 0 <= i < j < |s| ==> key(s[i]) >= key(s[j])
  }

  /** The elements whose key is k, in the order they occur. */
  function WithKey<T>(s: seq<T>, key: T -> int, k: int): seq<T> {
    if |s| == 0 then []
    else (if key(s[0]) == k then [s[0]] else []) + WithKey(s[1..], key, k)
  }

  /** Puts x in front of the first element that does not outrank it, so x precedes its ties. */
  function Insert<T>(x: T, s: seq<T>, key: T -> int): (r: seq<T>)
    ensures multiset(r) == multiset(s) + multiset{x}
  {
    if |s| == 0 || key(s[0]) <= key(x) then [x] + s
    else
      assert s == [s[0]] + s[1..];
      [s[0]] + Insert(x, s[1..], key)
  }

  /** Every element of Insert(x, s) is x or an element of s. */
  lemma InsertMember<T>(x: T, s: seq<T>, key: T -> int, y: T)
    requires y in Insert(x, s, key)
    ensures y == x || y in s
  {
    assert y in multiset(Insert(x, s, key));
  }

  /** Dropping the head keeps a sequence descending. */
  lemma TailKeepsDescending<T>(s: seq<T>, key: T -> int)
    requires |s| > 0 && Descending(s, key)
    ensures Descending(s[1..], key)
  {
    forall i, j | 0 <= i < j < |s[1..]| ensures key(s[1..][i]) >= key(s[1..][j]) {
      assert s[1..][i] == s[i + 1] && s[1..][j] == s[j + 1];
    }
  }

  /** A descending sequence stays descending with an element in front that outranks all of it. */
  lemma ConsKeepsDescending<T>(h: T, t: seq<T>, key: T -> int)
    requires Descending(t, key)
    requires forall y :: y in t ==> key(h) >= key(y)
    ensures Descending([h] + t, key)
  {
    var r := [h] + t;
    forall i, j | 0 <= i < j < |r| ensures key(r[i]) >= key(r[j]) {
      assert r[j] == t[j - 1];
      if i > 0 {
        assert r[i] == t[i - 1];
      }
    }
  }

  lemma {:induction false} InsertKeepsDescending<T>(x: T, s: seq<T>, key: T -> int)
    requires Descending(s, key)
    ensures Descending(Insert(x, s, key), key)
  {
    if |s| == 0 || key(s[0]) <= key(x) {
      forall y | y in s ensures key(x) >= key(y) {
        HeadOutranks(s, key, y);
      }
      ConsKeepsDescending(x, s, key);
    } else {
      var rest := Insert(x, s[1..], key);
      assert s == [s[0]] + s[1..];
      TailKeepsDescending(s, key);
      InsertKeepsDescending(x, s[1..], key);
      forall y | y in rest ensures key(s[0]) >= key(y) {
        InsertMember(x, s[1..], key, y);
        if y != x {
          HeadOutranks(s, key, y);
        }
      }
      ConsKeepsDescending(s[0], rest, key);
    }
  }

  /** A run of consecutive elements of a descending sequence is descending. */
  lemma WindowKeepsDescending<T>(s: seq<T>, w: seq<T>, key: T -> int, from: nat)
    requires Descending(s, key)
    requires IsWindowOf(w, s, from)
    ensures Descending(w, key)
  {
    forall i, j | 0 <= i < j < |w| ensures key(w[i]) >= key(w[j]) {
      WindowAt(w, s, from, i);
      WindowAt(w, s, from, j);
    }
  }

  /** The sorted order: sort the tail, then insert the head in front of its ties. */
  function SortDesc<T>(xs: seq<T>, key: T -> int): (r: seq<T>)
    ensures multiset(r) == multiset(xs)
    ensures Descending(r, key)
  {
    if |xs| == 0 then []
    else
      assert xs == [xs[0]] + xs[1..];
      InsertKeepsDescending(xs[0], SortDesc(xs[1..], key), key);
      Insert(xs[0], SortDesc(xs[1..], key), key)
  }

  /** Inserting x adds x to the run of its own key, at the front, and to no other run. */
  lemma {:induction false} InsertWithKey<T>(x: T, s: seq<T>, key: T -> int, k: int)
    ensures WithKey(Insert(x, s, key), key, k)
         == (if key(x) == k then [x] else []) + WithKey(s, key, k)
  {
    var own := if key(x) == k then [x] else [];
    if |s| == 0 || key(s[0]) <= key(x) {
      WithKeyCons(x, s, key, k);
    } else {
      var head := if key(s[0]) == k then [s[0]] else [];
      var rest := Insert(x, s[1..], key);
      var tail := WithKey(s[1..], key, k);
      assert head == [] || own == [];
      calc {
        WithKey(Insert(x, s, key), key, k);
        WithKey([s[0]] + rest, key, k);
        { WithKeyCons(s[0], rest, key, k); }
        head + WithKey(rest, key, k);
        { InsertWithKey(x, s[1..], key, k); }
        head + (own + tail);
        own + (head + tail);
        { assert s == [s[0]] + s[1..]; WithKeyCons(s[0], s[1..], key, k); }
        own + WithKey(s, key, k);
      }
    }
  }

  /** Unfolding WithKey over an element put in front. */
  lemma WithKeyCons<T>(h: T, t: seq<T>, key: T -> int, k: int)
    ensures WithKey([h] + t, key, k) == (if key(h) == k then [h] else []) + WithKey(t, key, k)
  {
    assert ([h] + t)[0] == h && ([h] + t)[1..] == t;
  }

  /** Stability: for every key, the elements with that key keep their input order. */
  lemma {:induction false} SortIsStable<T>(xs: seq<T>, key: T -> int, k: int)
    ensures WithKey(SortDesc(xs, key), key, k) == WithKey(xs, key, k)
  {
    if |xs| > 0 {
      InsertWithKey(xs[0], SortDesc(xs[1..], key), key, k);
      SortIsStable(xs[1..], key, k);
    }
  }

  /** A sequence without repeated elements sorts to one without repeated elements. */
  lemma {:induction false} SortKeepsDistinct<T>(xs: seq<T>, key: T -> int)
    requires Distinct(xs)
    ensures Distinct(SortDesc(xs, key))
  {
    if |xs| > 0 {
      var tail := SortDesc(xs[1..], key);
      SortKeepsDistinct(xs[1..], key);
      assert xs[0] !in multiset(xs[1..]);
      assert xs[0] !in multiset(tail);
      InsertKeepsDistinct(xs[0], tail, key);
    }
  }

  lemma {:induction false} InsertKeepsDistinct<T>(x: T, s: seq<T>, key: T -> int)
    requires Distinct(s) && x !in s
    ensures Distinct(Insert(x, s, key))
  {
    if |s| == 0 || key(s[0]) <= key(x) {
      ConsKeepsDistinct(x, s);
    } else {
      var rest := Insert(x, s[1..], key);
      assert Distinct(s[1..]) by {
        forall i, j | 0 <= i < j < |s[1..]| ensures s[1..][i] != s[1..][j] {
          assert s[1..][i] == s[i + 1] && s[1..][j] == s[j + 1];
        }
      }
      assert x !in s[1..];
      InsertKeepsDistinct(x, s[1..], key);
      assert s[0] !in rest by {
        assert s[0] !in s[1..];
        if s[0] in rest {
          InsertMember(x, s[1..], key, s[0]);
        }
      }
      ConsKeepsDistinct(s[0], rest);
    }
  }

  /** Sorting commutes with a mapping that carries the key along. */
  lemma {:induction false} SortCommutesWithMap<A, B>(f: A -> B, xs: seq<A>, ka: A -> int, kb: B -> int)
    requires forall a :: kb(f(a)) == ka(a)
    ensures Map(f, SortDesc(xs, ka)) == SortDesc(Map(f, xs), kb)
  {
    if |xs| > 0 {
      SortCommutesWithMap(f, xs[1..], ka, kb);
      assert Map(f, xs)[1..] == Map(f, xs[1..]);
      InsertCommutesWithMap(f, xs[0], SortDesc(xs[1..], ka), ka, kb);
    }
  }

  lemma {:induction false} InsertCommutesWithMap<A, B>(f: A -> B, x: A, s: seq<A>, ka: A -> int, kb: B -> int)
    requires forall a :: kb(f(a)) == ka(a)
    ensures Map(f, Insert(x, s, ka)) == Insert(f(x), Map(f, s), kb)
  {
    var ms := Map(f, s);
    if |s| == 0 || ka(s[0]) <= ka(x) {
      MapConcat(f, [x], s);
      assert Map(f, [x]) == [f(x)];
      assert |ms| == 0 || kb(ms[0]) <= kb(f(x));
    } else {
      var rest := Insert(x, s[1..], ka);
      assert ms[1..] == Map(f, s[1..]);
      assert kb(ms[0]) > kb(f(x));
      calc {
        Map(f, Insert(x, s, ka));
        Map(f, [s[0]] + rest);
        { MapConcat(f, [s[0]], rest); assert Map(f, [s[0]]) == [f(s[0])]; }
        [f(s[0])] + Map(f, rest);
        { InsertCommutesWithMap(f, x, s[1..], ka, kb); }
        [ms[0]] + Insert(f(x), ms[1..], kb);
        Insert(f(x), ms, kb);
      }
    }
  }

  /** The head of a descending sequence outranks every element of it. */
  lemma HeadOutranks<T>(a: seq<T>, key: T -> int, y: T)
    requires Descending(a, key) && y in multiset(a)
    ensures |a| > 0 && key(a[0]) >= key(y)
  {
    assert y in a;
  }

  /** Dropping one position keeps a sequence descending and removes one copy of that element. */
  lemma RemoveAt<T>(b: seq<T>, j: int, key: T -> int)
    requires 0 <= j < |b| && Descending(b, key)
    ensures multiset(b[..j] + b[j + 1..]) == multiset(b) - multiset{b[j]}
    ensures Descending(b[..j] + b[j + 1..], key)
  {
    var rest := b[..j] + b[j + 1..];
    assert b == b[..j] + [b[j]] + b[j + 1..];
    forall p, q | 0 <= p < q < |rest| ensures key(rest[p]) >= key(rest[q]) {
      var p' := if p < j then p else p + 1;
      var q' := if q < j then q else q + 1;
      assert rest[p] == b[p'] && rest[q] == b[q'];
    }
  }

  /** Dropping the head removes one copy of it. */
  lemma DropHeadMultiset<T>(a: seq<T>)
    requires |a| > 0
    ensures multiset(a[1..]) == multiset(a) - multiset{a[0]}
  {
    assert a == [a[0]] + a[1..];
  }

  /** In a descending sequence whose head ties with position j, every position up to j ties too. */
  lemma TiedPrefix<T>(b: seq<T>, j: int, key: T -> int)
    requires 0 <= j < |b| && Descending(b, key) && key(b[0]) <= key(b[j])
    ensures forall m :: 0 <= m <= j ==> key(b[m]) == key(b[j])
  {
  }

  /** Re-inserting at position j an element whose key ties with the whole prefix b[..j+1]. */
  lemma ShiftBack<T>(a: seq<T>, b: seq<T>, j: int, key: T -> int)
    requires |a| == |b| && 0 <= j < |b|
    requires forall m :: 0 <= m <= j ==> key(b[m]) == key(a[0])
    requires forall i :: 0 <= i < |a| - 1 ==> key(a[1..][i]) == key((b[..j] + b[j + 1..])[i])
    ensures forall i :: 0 <= i < |a| ==> key(a[i]) == key(b[i])
  {
    var rest := b[..j] + b[j + 1..];
    forall i | 0 < i < |a| ensures key(a[i]) == key(b[i]) {
      assert a[i] == a[1..][i - 1];
      if i <= j {
        assert rest[i - 1] == b[i - 1];
      } else {
        assert rest[i - 1] == b[i];
      }
    }
  }

  /**
   * The head of a finds its place j in b: removing it from both leaves two descending
   * orders of the same elements, and every element of b up to j ties with it.
   */
  lemma MatchHead<T>(a: seq<T>, b: seq<T>, key: T -> int) returns (j: int)
    requires |a| > 0 && multiset(a) == multiset(b)
    requires Descending(a, key) && Descending(b, key)
    ensures 0 <= j < |b| && b[j] == a[0]
    ensures multiset(a[1..]) == multiset(b[..j] + b[j + 1..])
    ensures Descending(a[1..], key) && Descending(b[..j] + b[j + 1..], key)
    ensures forall m :: 0 <= m <= j ==> key(b[m]) == key(a[0])
  {
    var x := a[0];
    assert x in multiset(b) by {
      assert x in multiset(a);
    }
    j :| 0 <= j < |b| && b[j] == x;
    var rest := b[..j] + b[j + 1..];
    assert forall m :: 0 <= m <= j ==> key(b[m]) == key(x) by {
      HeadOutranks(a, key, b[0]);
      TiedPrefix(b, j, key);
    }
    RemoveAt(b, j, key);
    DropHeadMultiset(a);
    TailKeepsDescending(a, key);
  }

  /**
   * Two descending orders of the same elements agree on the key at every position:
   * however ties are broken, the ranked sequence of keys is the same.
   */
  lemma {:induction false} DescendingPermutationsAgreeOnKeys<T>(a: seq<T>, b: seq<T>, key: T -> int)
    requires multiset(a) == multiset(b)
    requires Descending(a, key) && Descending(b, key)
    ensures |a| == |b|
    ensures forall i :: 0 <= i < |a| ==> key(a[i]) == key(b[i])
    decreases |a|
  {
    assert |a| == |multiset(a)| == |multiset(b)| == |b|;
    if |a| > 0 {
      var j := MatchHead(a, b, key);
      var rest := b[..j] + b[j + 1..];
      DescendingPermutationsAgreeOnKeys(a[1..], rest, key);
      ShiftBack(a, b, j, key);
    }
  }
}
